=== FILE: README.md ===
# Storefront cart, checkout and order pipeline in Dafny

A model of the server-side core of a Next.js storefront: the cart store, the
checkout that opens a hosted payment session, the two paths that turn a paid
session into an order (the success-page redirect and the payment processor's
webhook), the browser-side cart state, support-ticket replies and their
status cycle, and the small admin routes (categories, site settings, the
admin flag, user deletion) with the admin check they share.

The database is one immutable `Schema.Db` record: every table is a sequence
of rows in insertion order, and every identity column has its own counter.
Each route is a pure function from the database and the request to a
`Common.Response` (a body with status 200, or an error status and message)
and the new database. The signed-in identity is an explicit
`Option<ClerkUser>` parameter, and JavaScript truthiness is written out
(`Present`, `PresentInt`). Prices and totals are integer cents. Timestamps
are an abstract `now: nat` parameter. The payment processor is represented
only by its data: checkout's result is the request it would send
(`Checkout.SessionParams`), and the processor's reply, the webhook's
signature check and its event are parameters.

The checkout stores a text snapshot of the cart in the session metadata, and
the webhook parses it back. `Snapshot` writes that text as `JSON.stringify`
does for `{id, productId, quantity}` objects with integer fields (below
1e21 in magnitude), and parses it. `Snapshot.ParseSerialize` proves the
round trip, and `Snapshot.Parse` accepts nothing else: every text it
accepts is the serialisation of what it returns.
`Reconciliation.CheckoutThenWebhook` uses it to show that the order the
webhook builds reproduces the checked-out cart. The same module states how
the two order paths interact. The redirect path is idempotent per session.
The webhook path is not: a redelivered event, or a webhook after a redirect,
leaves two orders for one session.

Modules, one file each: `Common`, `Schema`, `Sorting`, `Snapshot`,
`CartApi`, `CartContext`, `Checkout`, `OrderCreate`, `Webhook`,
`Reconciliation`, `AdminAuth`, `Tickets`, `TicketMessages`, `Categories`,
`Settings`, `AdminUsers`, `UserSync`.

## Model

| member | source | states |
|---|---|---|
| Common.SignedInEmail | src/app/api/cart/route.jsx:12-16 | The caller counts as signed in exactly when there is a user and the primary address is present and non-empty. The address returned is that one. |
| Schema.JoinCart | src/app/api/cart/route.jsx:18-34 | The rows of the joined cart are the cart filtered to the caller's rows whose product exists, each exactly once, in table order (the order the model fixes for a query without `ORDER BY`; see Left out). Each row is paired with the product that its productId names. |
| Schema.NewItemsTotal | src/app/api/orders/create/route.jsx:80-89 | The order items made from item lines sum, as price times quantity, to the lines' total. |
| Sorting.SortBy | src/app/api/tickets/route.jsx:39-43 | `ORDER BY` yields a permutation of the rows that is ordered by the key. |
| Snapshot.Serialize | src/app/api/checkout/route.jsx:67-71 | The text is a JSON array: it starts with `[`, and it is `[]` exactly for no entries. What it writes for entries is what `Snapshot.ParseSerialize` reads back. |
| Snapshot.Parse | src/app/api/webhook/stripe/route.jsx:40 | Whatever text it accepts is the serialisation of the entries it returns. Any other text is a failure, as when `JSON.parse` throws. |
| Snapshot.LeadingZeroRefused | src/app/api/webhook/stripe/route.jsx:40 | A number with a leading zero, signed or not, is refused, as `JSON.parse` refuses it. |
| Snapshot.ParseSerialize | src/app/api/checkout/route.jsx:65-72 | Parsing the snapshot text gives back exactly the list of entries written, for every list. |
| Checkout.Truncate | src/app/api/checkout/route.jsx:49 | `substring(0, n)` is a prefix of length min(len, n). |
| Checkout.CreateSession | src/app/api/checkout/route.jsx:8-75 | Signed out gives 401 and an empty joined cart gives 400 "Cart is empty"; neither opens a session. Otherwise there is one line item per joined row, in order, with the same quantity, the product price in cents in US dollars, with the product's title, the product's image as the only image, and the product's description cut to its first 100 characters (`Truncate`). The success URL and cancel URL are fixed. The metadata has the buyer's address and a snapshot that parses back to the rows' (id, productId, quantity). |
| Checkout.LineItems | src/app/api/checkout/route.jsx:42-55 | There is one line item per joined cart row, in the joined rows' order. Each charges the product's price for the row's quantity, is named after the product, is in US dollars, carries the product's image as its only image, and has the product's description cut to its first 100 characters (`Truncate`). |
| OrderCreate.Create | src/app/api/orders/create/route.jsx:7-96 | 401 without sign-in and 400 without a session id. An order that already exists for the session is returned unchanged with "Order already exists". An empty joined cart gives 400 "No cart items found". None of these writes anything. Otherwise exactly one order is appended (caller, session, "completed"); its total is the supplied total if truthy, else the sum over the cart. One item per joined row copies product, quantity and price, and the items sum to the total. The cart and every other table are unchanged. |
| Webhook.SnapshotLines | src/app/api/webhook/stripe/route.jsx:61-77 | One item line per snapshot entry whose product exists, in snapshot order. Each takes the snapshot's product and quantity and the product row's current price. |
| Webhook.Handle | src/app/api/webhook/stripe/route.jsx:8-103 | A bad signature gives 400 and changes nothing. Every verified event gets 200 `{received: true}`. Only a completed checkout with both metadata fields and a parsable snapshot writes anything, and then it appends one order for the session even if one exists. It also appends items for the snapshot entries that have a product, and deletes exactly the buyer's cart rows. |
| Reconciliation.RedirectRepeatIsNoOp | src/app/api/orders/create/route.jsx:25-36 | After a successful redirect call, a second call for the same session, by any signed-in caller, returns that same order and writes nothing. |
| Reconciliation.RedirectKeepsSessionsUnique | src/app/api/orders/create/route.jsx:25-77 | The redirect path never brings a session above one order. |
| Reconciliation.WebhookRedeliveryDuplicates | src/app/api/webhook/stripe/route.jsx:29-58 | Delivering the same processable event twice leaves two more orders for its session. |
| Reconciliation.WebhookThenRedirect | src/app/api/orders/create/route.jsx:25-36 | After the webhook made the order, the redirect call for that session answers "Order already exists" and writes nothing. |
| Reconciliation.RedirectThenWebhook | src/app/api/webhook/stripe/route.jsx:49-58 | A redirect order followed by the webhook for the same session leaves two orders for that session. |
| Reconciliation.CheckoutThenWebhook | src/app/api/webhook/stripe/route.jsx:38-82 | The webhook may receive the session checkout opened, with the amount the line items charge and the same products. Then the order's items are exactly the joined cart rows (product, quantity, price), their sum is the order total, and the buyer's cart ends up empty. |
| Reconciliation.SnapshotRebuildsLines | src/app/api/webhook/stripe/route.jsx:60-78 | When every joined row's product is still in the catalogue, no snapshot entry drops out. The order-item lines the webhook rebuilds from the checkout snapshot are the joined rows' (product, quantity, price). |
| CartApi.Get | src/app/api/cart/route.jsx:8-41 | Always 200. Signed out gets an empty list. Every listed row is the caller's and has its product. Every caller row whose product exists is listed. |
| CartApi.Add | src/app/api/cart/route.jsx:44-100 | 401 signed out and 400 without a product id, with no change. The quantity defaults to 1. An existing row of the caller for the product has its quantity raised by it and no row is added. Otherwise exactly one new row is appended. Only the cart changes. |
| CartApi.Update | src/app/api/cart/route.jsx:111-140 | 401 signed out and 400 without id or quantity. Otherwise only rows with that id and the caller's address take the new quantity, with no lower bound, and the reply is the updated row. When no row of the caller has the id, the reply is 500 "Failed to update cart" and nothing changes: the update returns no row and `NextResponse.json(undefined)` throws inside the `try`. |
| CartApi.Delete | src/app/api/cart/route.jsx:151-190 | 401 signed out. With clearAll, exactly the caller's rows go. Otherwise 400 without an id, else exactly the caller's row with that id goes. Other users' rows always stay. |
| CartApi.AddHolding | src/app/api/cart/route.jsx:65-100 | Adding q of a product raises the caller's total of that product by q and leaves every other (owner, product) total alone. It keeps one row per (owner, product), distinct ids and ids below the counter. |
| CartApi.AddKeepsWf | src/app/api/cart/route.jsx:65-100 | Adding to the cart, on every path, keeps distinct row ids, one row per (owner, product), and every id below the id counter. |
| CartApi.ClearIdempotent | src/app/api/cart/route.jsx:164-170 | Clearing a cart a second time changes nothing. |
| CartApi.UpdateDeleteKeepWf | src/app/api/cart/route.jsx:129-188 | Quantity changes and deletes keep one row per (owner, product), distinct ids and ids below the counter. |
| CartContext.RemoveFromCart | src/contexts/CartContext.jsx:85-94 | Sends one DELETE. On success exactly the items with that id disappear. On failure the list is unchanged. |
| CartContext.RemoveKeepsOrder | src/contexts/CartContext.jsx:88 | The removal filter keeps the remaining items in their order. |
| CartContext.UpdateQuantity | src/contexts/CartContext.jsx:96-118 | A quantity below one delegates to the removal. Otherwise it sends one PUT. On success only the matching items change quantity and the others stay. On failure it refetches. |
| CartContext.AddToCart | src/contexts/CartContext.jsx:45-83 | Signed out, or a product without an id, sends nothing and changes nothing. A product not in the list is posted with one unit: on success the list is the refetched one, on failure it is unchanged. For a held item (the first with that product) the quantity goes up by one, or becomes NaN when missing. Then it sends one PUT with it; on success exactly the items with that id take it and the others stay, and on failure it refetches. If one more is still below one, the item is deleted instead. |
| CartContext.AddHeldCount | src/contexts/CartContext.jsx:60-67 | With distinct ids, a successful add of a product held with a quantity raises the count by exactly one. |
| CartContext.ClearCart | src/contexts/CartContext.jsx:120-129 | Sends one DELETE with clearAll. On success the list is empty, and on failure it is unchanged. |
| CartContext.ClearAgreesWithServer | src/contexts/CartContext.jsx:120-129 | After a successful clear the context's list is empty and counts zero, and after the server's DELETE with clearAll its GET returns no line for the caller: the two sides agree. |
| CartContext.CartCount | src/contexts/CartContext.jsx:138-141 | The count is the left fold over the items that `reduce` performs, adding each quantity and 0 for a missing one. The lemmas below state how each action moves it. |
| CartContext.RemoveCount | src/contexts/CartContext.jsx:138-141 | After a removal the count drops by exactly what the removed items held. |
| CartContext.UpdateCount | src/contexts/CartContext.jsx:138-141 | After a quantity change the count moves by the new quantity minus the old, for each matching item. |
| CartContext.CartCountBounds | src/contexts/CartContext.jsx:138-141 | The count is at least 0 when no quantity is negative. It is at least the number of items when each has a unit. |
| AdminAuth.CheckAdminAuth | src/lib/api/adminAuth.js:6-34 | No user, no address or a failed lookup gives `{false, null}`. Otherwise the caller is admin exactly when the first users row for the address has the flag, and the result carries that row. |
| AdminAuth.AdminIffFlagged | src/lib/api/adminAuth.js:20-28 | When addresses are unique, the caller is admin exactly when some row with the caller's address has the flag. |
| TicketMessages.ReplierIsAdmin | src/app/api/tickets/messages/route.jsx:37-43 | A caller without an address is never the admin. An admin replier has an admin-flagged users row for the address. For a non-empty address it is exactly the shared admin check. |
| Tickets.Thread | src/app/api/tickets/route.jsx:30-34 | A ticket's thread holds exactly that ticket's messages, each as often as stored, oldest first. |
| Tickets.OwnTickets | src/app/api/tickets/route.jsx:39-43 | The list holds exactly the caller's tickets, latest update first. |
| Tickets.Get | src/app/api/tickets/route.jsx:7-62 | 401 signed out. With an id it returns that ticket and its thread, or 404. Without one it returns the caller's tickets, latest first, each with its thread. |
| Tickets.ByIdIgnoresOwner | src/app/api/tickets/route.jsx:19-36 | Reading a ticket by id gives the same answer to every signed-in caller, so there is no ownership check. |
| Tickets.ListIsOwnTickets | src/app/api/tickets/route.jsx:39-57 | A ticket is in the caller's list exactly when it is stored with the caller's address. |
| Tickets.Create | src/app/api/tickets/route.jsx:64-97 | 400 without a subject or message, and nothing is written. Otherwise one ticket is added with status "open" and priority default "medium", plus one non-admin message from the same sender and name. |
| Tickets.CreateOpensThread | src/app/api/tickets/route.jsx:73-90 | When ids are fresh, a new ticket's thread is exactly its opening message. |
| Tickets.CreateKeepsWf | src/app/api/tickets/route.jsx:73-90 | Opening a ticket keeps ticket and message ids below their counters. |
| Tickets.SetStatus | src/app/api/tickets/route.jsx:99-123 | 401 signed out. Otherwise any caller sets any status on the rows with the id, together with the update time. Other rows and tables are unchanged, and the reply is the updated row. When no ticket has the id, the reply is 500 "Failed to update ticket" and nothing changes: `NextResponse.json(undefined)` throws inside the `try`. |
| Tickets.SetStatusKeepsWf | src/app/api/tickets/route.jsx:99-123 | A status change keeps every ticket and message id below its counter and the ticket ids distinct. |
| Tickets.SetStatusTwice | src/app/api/tickets/route.jsx:99-123 | Repeating a status change with the same status and time gives the same reply and writes nothing more. |
| TicketMessages.SenderName | src/app/api/tickets/messages/route.jsx:55 | The full name, else the first name, else "User"; never empty. |
| TicketMessages.NextStatus | src/app/api/tickets/messages/route.jsx:61-66 | An admin reply keeps "resolved" and otherwise gives "in_progress". A user reply turns "resolved" into "open" and otherwise keeps the status. Only an admin reply on a resolved ticket yields "resolved", and a status other than "closed" never becomes "closed". |
| TicketMessages.NextStatusSettles | src/app/api/tickets/messages/route.jsx:64-66 | A second reply from the same side does not move the status again. |
| TicketMessages.NextStatusStaysInCycle | src/app/api/tickets/messages/route.jsx:64-66 | From open, in progress or resolved, a reply stays within those three. |
| TicketMessages.Reply | src/app/api/tickets/messages/route.jsx:7-81 | The checks are sign-in 401, id and message 400, ticket 404, closed 400 and owner-or-admin 403, in that order, and each refusal writes nothing. A reply succeeds exactly when all pass. Then one message is appended with the replier's admin flag and display name, and the ticket takes the next status and the update time. |
| TicketMessages.ReplyNeverCloses | src/app/api/tickets/messages/route.jsx:33-74 | When ids are unique, no reply closes a ticket and no reply changes a closed one. |
| TicketMessages.ReplyKeepsWf | src/app/api/tickets/messages/route.jsx:50-74 | A reply keeps ticket and message ids below their counters. |
| Categories.Apply | src/app/api/admin/categories/route.jsx:44-53 | Exactly the fields the body names change; an explicit null clears a field. |
| Categories.ApplyTwice | src/app/api/admin/categories/route.jsx:44-53 | Applying a patch twice is applying it once. |
| Categories.Create | src/app/api/admin/categories/route.jsx:7-32 | 403 for a non-admin, with no change. Otherwise one active category is appended. |
| Categories.Update | src/app/api/admin/categories/route.jsx:34-60 | 403 for a non-admin. A body naming no field is a 500. Otherwise only the rows with the id take the patch. Nothing changes on a refusal. |
| Categories.UpdateIdempotent | src/app/api/admin/categories/route.jsx:44-55 | Repeating a successful update succeeds and changes nothing more. |
| Categories.Delete | src/app/api/admin/categories/route.jsx:62-84 | 403 for a non-admin and 400 without an id. Otherwise exactly the rows with the id go. |
| Categories.CreateThenDelete | src/app/api/admin/categories/route.jsx:7-84 | For an admin, a created category takes a fresh id, and deleting that id at once succeeds and leaves the table exactly as before the create; only the id counter has moved. |
| Settings.UpsertOne | src/app/api/admin/settings/route.jsx:18-31 | A key with rows has those rows' value and time replaced in place. A new key gets one appended row with the next id. |
| Settings.UpsertAll | src/app/api/admin/settings/route.jsx:17-32 | Rows keep their place, id and key. Rows are only added for posted keys, with consecutive fresh ids. |
| Settings.UpsertAllUntouched | src/app/api/admin/settings/route.jsx:17-32 | Rows whose key was not posted do not change. |
| Settings.UpsertAllLastValue | src/app/api/admin/settings/route.jsx:17-32 | Every row with a posted key carries the last value posted for it. |
| Settings.UpsertAllPosted | src/app/api/admin/settings/route.jsx:17-32 | Every posted key reads as the last value posted for it. |
| Settings.UpsertAllTwice | src/app/api/admin/settings/route.jsx:17-32 | A second pass with the same pairs changes no id, key or value and adds no row. |
| Settings.Post | src/app/api/admin/settings/route.jsx:7-39 | 403 for a non-admin, with no change. Otherwise each posted key reads as its last posted value, every other key reads as before, and only the settings change. |
| Settings.PostTwice | src/app/api/admin/settings/route.jsx:7-39 | Posting the same object twice leaves the same ids, keys and values as posting it once. |
| Settings.UpsertKeepsUniqueKeys | src/app/api/admin/settings/route.jsx:18-31 | Writes keep at most one row per key. |
| AdminUsers.SetAdmin | src/app/api/admin/users/route.jsx:7-27 | 403 for a non-admin, with no change. Otherwise only the admin flag of the rows with the id changes. |
| AdminUsers.SelfDemotionLocksOut | src/app/api/admin/users/route.jsx:15-20 | An admin who clears their own flag fails the admin check at once. |
| AdminUsers.DeleteUser | src/app/api/admin/users/route.jsx:29-51 | 403 for a non-admin and 400 without an id. A user who created products is refused with 500, via the foreign key. Otherwise exactly the rows with the id go. |
| AdminUsers.DeleteUserTwice | src/app/api/admin/users/route.jsx:29-51 | Deleting keeps e-mail addresses unique. Deleting the same id again writes nothing, whether the caller is still an admin (a success) or has just removed their own row (a 403). |
| UserSync.Sync | src/app/api/user/route.jsx:6-37 | No user, address or full name gives a 500 that writes nothing. A new address gets one new non-admin row. A known address has only name and image replaced on its rows, and other addresses are untouched. |
| UserSync.SyncLeavesOneRow | src/app/api/user/route.jsx:9-36 | When addresses are unique, a successful sync keeps them unique and leaves exactly one row for the address. |

## Left out

- The payment processor: creating a session, checking the webhook signature and building the event are parameters (`created`, `signatureValid`, `event`).
- The identity provider's `currentUser` is the `caller` parameter.
- Storage failures. Each `catch` that turns a failed statement into a 500, or the cart GET's 200 with an empty list, is left out. The exceptions are the lookup failure in `checkAdminAuth` and the statements the model predicts must fail (listed below).
- The webhook's internal `catch` is left out. A failure after the order insert would leave that order without items or a cleared cart, because neither order path is atomic.
- Concurrency: calls are sequential. The redirect path's lookup-then-insert does not protect overlapping calls, and the webhook racing the redirect is not modelled beyond sequential order. `Promise.all` inserts are modelled in array order.
- Floating point: `parseFloat` prices, `Math.round(price * 100)` and the webhook's `amount_total / 100` are not modelled; every amount is integer cents, so these conversions are identities.
- Snapshot.Parse: accepts only the text `Serialize` writes. JSON that `JSON.parse` would accept but `JSON.stringify` never writes for this snapshot counts as a parse failure, as if `JSON.parse` had thrown. This covers whitespace, other key orders, `-0`, fractions and exponents. So hand-made metadata of that kind stores no order in the model, where the route would store one.
- Snapshot.Serialize: writes every integer in plain digits. `JSON.stringify` switches to exponent form (`1e+21`) at magnitudes of 1e21 and above; ids and quantities that large are not modelled.
- Checkout.Truncate: strings are sequences of Unicode code points, while `substring(0, 100)` counts UTF-16 code units. For characters outside the Basic Multilingual Plane the model keeps more: a description of 101 emoji keeps 100 of them here but 50 in the route (which may also split a surrogate pair).
- Webhook.Handle: the orders table's schema is not given, and the model assumes `stripeSessionId` has no unique constraint. With one, a second webhook or a webhook after the redirect would fail on the insert, land in the route's `catch`, and leave no second order and the cart uncleared. `Reconciliation.WebhookRedeliveryDuplicates` and `Reconciliation.RedirectThenWebhook` hold under this assumption.
- The webhook's first product query, `where id = productIds[0]`, is left out because its result is never used.
- CartContext.CartCountBounds: `getCartCount`'s guard for a non-array `cartItems` is not modelled, since the item list is always a sequence here.
- Arithmetic with a missing value (`NaN`) is modelled only as `undefined + 1` in `addToCart`, carried as a missing quantity. The server's handling of such a quantity is not modelled.
- Tickets.Get: a caller without an address is taken to own no ticket. `parseInt` of a non-numeric id is not modelled; the id parameter is the parsed number.
- Tickets.SetStatus: a missing id in the body is not modelled (the id is an `int`). The status is not validated, as in the route.
- Categories.Update and AdminUsers.SetAdmin: a missing `id`/`userId` in the body is not modelled; the id is an `int` and the flag a `bool`.
- UserSync.Sync: missing user fields are taken to arrive as `null`, as in a serialised identity record. A missing full name therefore fails the not-null name column on both branches.
- Which order `ORDER BY` gives equal keys is not fixed by the database. The model keeps table order, and its contracts state only the ordering and the permutation.
- Row order of a query without `ORDER BY` (the inner joins of src/app/api/cart/route.jsx:33, src/app/api/checkout/route.jsx:33 and src/app/api/orders/create/route.jsx:52, and the `[0]` of a lookup) is not fixed by the database. The model returns table order. What the contracts rely on is only the positional agreement between arrays built from one query result: the line items, the snapshot and the order items are each built from the same joined array, so they agree element by element whatever order the database chose. A lookup taking `[0]` sees one matching row wherever the model's invariants hold: a primary key, the unique e-mail column, or the one row per (owner, product) that `CartApi.AddKeepsWf` and `CartApi.UpdateDeleteKeepWf` preserve. The exception is the orders of one session after a duplicate insert by the webhook; there the model takes the earliest row, where the database may return either.
- Product creation, file upload, read-only list routes, the admin dashboards and every UI component are outside the core.
- `configs/schema.js` shows only the users and product tables. The other tables are defined from the fields the routes read and write.

=== FILE: admin_auth.dfy ===
/** The admin decision every admin route makes first (src/lib/api/adminAuth.js). */
module AdminAuth {
  import opened Common
  import opened Schema

  /** `{ isAdmin, user }` as `checkAdminAuth` returns it. */
  datatype AdminCheck = AdminCheck(isAdmin: bool, user: Option<User>)

  /** `users` is the result of the lookup by e-mail: `None` when the query
      fails. A caller is an admin exactly when the first users row with the
      caller's primary e-mail address has the admin flag set. */
  function CheckAdminAuth(caller: Option<ClerkUser>, users: Option<seq<User>>): (r: AdminCheck)
    ensures r.isAdmin <==> r.user.Some?
    ensures caller.None? ==> r == AdminCheck(false, None)
    ensures caller.Some? && !Present(caller.value.email) ==> !r.isAdmin
    ensures users.None? ==> r == AdminCheck(false, None)
    ensures r.isAdmin ==>
      caller.Some? && Present(caller.value.email) && users.Some?
      && r.user.value in users.value && r.user.value.email == caller.value.email.value
      && r.user.value.isAdmin
    ensures caller.Some? && Present(caller.value.email) && users.Some? ==>
      (r.isAdmin <==> (var u := FindUserByEmail(users.value, caller.value.email.value);
                       u.Some? && u.value.isAdmin))
  {
    if caller.None? then AdminCheck(false, None)
    else if !Present(caller.value.email) then AdminCheck(false, None)
    else if users.None? then AdminCheck(false, None)
    else
      var u := FindUserByEmail(users.value, caller.value.email.value);
      if u.Some? && u.value.isAdmin then AdminCheck(true, u) else AdminCheck(false, None)
  }

  /** The admin gate of the admin routes, with the lookup in the users table. */
  predicate IsAdmin(db: Db, caller: Option<ClerkUser>) {
    CheckAdminAuth(caller, Some(db.users)).isAdmin
  }

  /** E-mail addresses are unique in the users table (the schema's unique
      constraint). */
  predicate UniqueEmails(users: seq<User>) {
    forall i, j :: 0 <= i < j < |users| ==> users[i].email != users[j].email
  }

  /** With unique e-mails, a signed-in caller is an admin exactly when some
      users row for their e-mail carries the admin flag. */
  lemma AdminIffFlagged(caller: Option<ClerkUser>, users: seq<User>)
    requires UniqueEmails(users)
    requires caller.Some? && Present(caller.value.email)
    ensures CheckAdminAuth(caller, Some(users)).isAdmin
      <==> exists k :: 0 <= k < |users| && users[k].email == caller.value.email.value && users[k].isAdmin
  {
    var e := caller.value.email.value;
    var u := FindUserByEmail(users, e);
    if exists k :: 0 <= k < |users| && users[k].email == e && users[k].isAdmin {
      var k :| 0 <= k < |users| && users[k].email == e && users[k].isAdmin;
      var j :| 0 <= j < |users| && users[j] == u.value;
      assert j == k;
    }
  }
}

=== FILE: admin_users.dfy ===
/** Admin user management (src/app/api/admin/users/route.jsx): setting a
    user's admin flag and deleting a user, each behind the admin gate. */
module AdminUsers {
  import opened Common
  import opened Schema
  import AdminAuth

  /** The users table with the admin flag of the rows with the id set. */
  function SetFlag(users: seq<User>, userId: int, flag: bool): (r: seq<User>)
    ensures |r| == |users|
    ensures forall k :: 0 <= k < |users| ==>
      r[k] == if users[k].id == userId then users[k].(isAdmin := flag) else users[k]
  {
    seq(|users|, k requires 0 <= k < |users| =>
      if users[k].id == userId then users[k].(isAdmin := flag) else users[k])
  }

  /** PUT /api/admin/users: 403 for anyone but an admin; otherwise only the
      admin flag of the user with the id changes. */
  function SetAdmin(db: Db, caller: Option<ClerkUser>, userId: int, flag: bool): (r: (Response<Done>, Db))
    ensures !AdminAuth.IsAdmin(db, caller) ==> r == (Fail(403, "Unauthorized"), db)
    ensures AdminAuth.IsAdmin(db, caller) ==>
      && r.0 == Ok(Success)
      && |r.1.users| == |db.users|
      && (forall k :: 0 <= k < |db.users| && db.users[k].id != userId ==> r.1.users[k] == db.users[k])
      && (forall k :: 0 <= k < |db.users| && db.users[k].id == userId ==>
            r.1.users[k].isAdmin == flag && r.1.users[k] == db.users[k].(isAdmin := r.1.users[k].isAdmin))
      && r.1 == db.(users := r.1.users)
  {
    if !AdminAuth.IsAdmin(db, caller) then (Fail(403, "Unauthorized"), db)
    else (Ok(Success), db.(users := SetFlag(db.users, userId, flag)))
  }

  /** The first row for an address sits at the same place after a flag
      change, since e-mail addresses do not change. */
  lemma {:induction false} FindAfterSetFlag(users: seq<User>, userId: int, flag: bool, email: string)
    ensures var u := FindUserByEmail(users, email);
      var v := FindUserByEmail(SetFlag(users, userId, flag), email);
      && (u.None? <==> v.None?)
      && (u.Some? ==> v.value == if u.value.id == userId then u.value.(isAdmin := flag) else u.value)
    decreases |users|
  {
    if users != [] {
      assert SetFlag(users, userId, flag)[1..] == SetFlag(users[1..], userId, flag);
      FindAfterSetFlag(users[1..], userId, flag, email);
    }
  }

  /** An admin who clears their own flag loses access to the admin routes at
      once: nothing stops the last admin from doing so. */
  lemma SelfDemotionLocksOut(db: Db, caller: Option<ClerkUser>)
    requires AdminAuth.IsAdmin(db, caller)
    ensures var me := AdminAuth.CheckAdminAuth(caller, Some(db.users)).user.value;
      !AdminAuth.IsAdmin(SetAdmin(db, caller, me.id, false).1, caller)
  {
    var e := caller.value.email.value;
    var me := AdminAuth.CheckAdminAuth(caller, Some(db.users)).user.value;
    FindAfterSetFlag(db.users, me.id, false, e);
  }

  function UserIdIsNot(id: int): User -> bool {
    (u: User) => u.id != id
  }

  /** Some product names the user with the id as its creator: the product
      table's foreign key on `createdBy` then refuses the delete. */
  predicate CreatedProducts(db: Db, id: int) {
    exists i, k :: 0 <= i < |db.users| && 0 <= k < |db.products|
      && db.users[i].id == id && db.products[k].createdBy == db.users[i].email
  }

  /** DELETE /api/admin/users?userId=: 403 for anyone but an admin, 400
      without an id; a user who created products cannot be removed (the
      failed statement surfaces as 500); otherwise the rows with the id go
      and nothing else changes. */
  function DeleteUser(db: Db, caller: Option<ClerkUser>, userId: Option<int>): (r: (Response<Done>, Db))
    ensures !AdminAuth.IsAdmin(db, caller) ==> r == (Fail(403, "Unauthorized"), db)
    ensures AdminAuth.IsAdmin(db, caller) && userId.None? ==> r == (Fail(400, "User ID required"), db)
    ensures AdminAuth.IsAdmin(db, caller) && userId.Some? && CreatedProducts(db, userId.value) ==>
      r == (Fail(500, "Failed to delete user"), db)
    ensures r.0.Ok? <==> AdminAuth.IsAdmin(db, caller) && userId.Some? && !CreatedProducts(db, userId.value)
    ensures r.0.Ok? ==>
      && (forall u :: u in r.1.users <==> u in db.users && u.id != userId.value)
      && r.1 == db.(users := r.1.users)
  {
    if !AdminAuth.IsAdmin(db, caller) then (Fail(403, "Unauthorized"), db)
    else if userId.None? then (Fail(400, "User ID required"), db)
    else if CreatedProducts(db, userId.value) then (Fail(500, "Failed to delete user"), db)
    else (Ok(Success), db.(users := Where(db.users, UserIdIsNot(userId.value))))
  }

  /** Filtering rows out keeps e-mail addresses unique. */
  lemma {:induction false} WhereKeepsUniqueEmails(users: seq<User>, keep: User -> bool)
    requires AdminAuth.UniqueEmails(users)
    ensures AdminAuth.UniqueEmails(Where(users, keep))
    decreases |users|
  {
    if users != [] {
      var rest := Where(users[1..], keep);
      WhereKeepsUniqueEmails(users[1..], keep);
      if keep(users[0]) {
        forall j | 0 <= j < |rest| ensures rest[j].email != users[0].email {
          assert rest[j] in users[1..];
        }
      }
    }
  }

  /** A deleted user stays deleted: deleting the same id again writes
      nothing, whether the caller is still an admin (a success that removes
      no row) or has just deleted their own row (a 403). Deleting keeps
      e-mail addresses unique. */
  lemma DeleteUserTwice(db: Db, caller: Option<ClerkUser>, userId: Option<int>)
    requires AdminAuth.UniqueEmails(db.users)
    ensures var db1 := DeleteUser(db, caller, userId).1;
      && AdminAuth.UniqueEmails(db1.users)
      && DeleteUser(db1, caller, userId).1 == db1
      && (DeleteUser(db, caller, userId).0.Ok? && AdminAuth.IsAdmin(db1, caller) ==>
            DeleteUser(db1, caller, userId).0.Ok?)
  {
    var db1 := DeleteUser(db, caller, userId).1;
    if DeleteUser(db, caller, userId).0.Ok? {
      var keep := UserIdIsNot(userId.value);
      WhereKeepsUniqueEmails(db.users, keep);
      WhereTwice(db.users, keep);
      assert !CreatedProducts(db1, userId.value);
    }
  }
}

=== FILE: cart_api.dfy ===
/** The cart store (src/app/api/cart/route.jsx): list, add, set quantity,
    remove and clear, each scoped by the caller's e-mail address. */
module CartApi {
  import opened Common
  import opened Schema

  /** The first row of `email`'s cart for `productId`. */
  function FindCartRow(cart: seq<CartItem>, email: string, productId: int): (r: Option<CartItem>)
    ensures r.Some? ==> r.value in cart && r.value.userEmail == email && r.value.productId == productId
    ensures r.None? <==> forall k :: 0 <= k < |cart| ==> !(cart[k].userEmail == email && cart[k].productId == productId)
  {
    First(cart, HoldsProduct(email, productId))
  }

  /** `WHERE userEmail = email AND productId = productId`. */
  function HoldsProduct(email: string, productId: int): CartItem -> bool {
    (c: CartItem) => c.userEmail == email && c.productId == productId
  }

  /** The first row with the given id and owner. */
  function FindRow(cart: seq<CartItem>, id: int, email: string): (r: Option<CartItem>)
    ensures r.Some? ==> r.value in cart && r.value.id == id && r.value.userEmail == email
    ensures r.None? <==> forall k :: 0 <= k < |cart| ==> !(cart[k].id == id && cart[k].userEmail == email)
  {
    First(cart, RowOf(id, email))
  }

  /** `WHERE id = id`. */
  function IdIs(id: int): CartItem -> bool {
    (c: CartItem) => c.id == id
  }

  /** `WHERE id = id AND userEmail = email`. */
  function RowOf(id: int, email: string): CartItem -> bool {
    (c: CartItem) => c.id == id && c.userEmail == email
  }

  /** `WHERE userEmail <> email`. */
  function NotOwnedBy(email: string): CartItem -> bool {
    (c: CartItem) => c.userEmail != email
  }

  /** The rows a `DELETE ... WHERE id = id AND userEmail = email` leaves. */
  function NotRowOf(id: int, email: string): CartItem -> bool {
    (c: CartItem) => !(c.id == id && c.userEmail == email)
  }

  /** `UPDATE cartItems SET quantity = q WHERE <hit>`. */
  function SetQuantity(cart: seq<CartItem>, hit: CartItem -> bool, q: int): (r: seq<CartItem>)
    ensures |r| == |cart|
    ensures forall k :: 0 <= k < |r| ==> r[k] == if hit(cart[k]) then cart[k].(quantity := q) else cart[k]
  {
    seq(|cart|, k requires 0 <= k < |cart| => if hit(cart[k]) then cart[k].(quantity := q) else cart[k])
  }

  /** GET: the caller's rows joined with their products. A signed-out caller
      gets an empty list with status 200, not an error. */
  function Get(db: Db, caller: Option<ClerkUser>): (r: Response<seq<CartLine>>)
    ensures r.Ok?
    ensures SignedInEmail(caller).None? ==> r.body == []
    ensures forall k :: 0 <= k < |r.body| ==>
      r.body[k].item in db.cart && Some(r.body[k].item.userEmail) == SignedInEmail(caller)
      && FindProduct(db.products, r.body[k].item.productId) == Some(r.body[k].product)
    ensures forall c ::
      (c in db.cart && Some(c.userEmail) == SignedInEmail(caller) && FindProduct(db.products, c.productId).Some?)
      ==> exists k :: 0 <= k < |r.body| && r.body[k].item == c
  {
    var email := SignedInEmail(caller);
    if email.None? then Ok([]) else Ok(JoinCart(db.cart, db.products, email.value))
  }

  /** POST: add `quantity` (default 1) of a product. An existing row of the
      caller for that product has its quantity raised; otherwise one row is
      inserted. Only the cart table and its id counter can change. */
  function Add(db: Db, caller: Option<ClerkUser>, productId: Option<int>, quantity: Option<int>, now: nat)
    : (r: (Response<CartItem>, Db))
    ensures SignedInEmail(caller).None? ==> r == (Fail(401, "Unauthorized"), db)
    ensures SignedInEmail(caller).Some? && !PresentInt(productId) ==>
      r == (Fail(400, "Product ID is required"), db)
    ensures SignedInEmail(caller).Some? && PresentInt(productId) ==>
      var e := SignedInEmail(caller).value;
      var q := quantity.GetOr(1);
      && r.0.Ok?
      && r.0.body.userEmail == e && r.0.body.productId == productId.value
      && r.1 == db.(cart := r.1.cart, nextCartId := r.1.nextCartId)
      && match FindCartRow(db.cart, e, productId.value)
         case Some(x) =>
           && r.0.body == x.(quantity := x.quantity + q)
           && r.1.cart == SetQuantity(db.cart, IdIs(x.id), x.quantity + q)
           && r.1.nextCartId == db.nextCartId
         case None =>
           && r.0.body == CartItem(db.nextCartId, e, productId.value, q, now)
           && r.1.cart == db.cart + [r.0.body]
           && r.1.nextCartId == db.nextCartId + 1
  {
    var email := SignedInEmail(caller);
    if email.None? then (Fail(401, "Unauthorized"), db)
    else if !PresentInt(productId) then (Fail(400, "Product ID is required"), db)
    else
      var e := email.value;
      var q := quantity.GetOr(1);
      match FindCartRow(db.cart, e, productId.value)
      case Some(x) =>
        var n := x.quantity + q;
        (Ok(x.(quantity := n)), db.(cart := SetQuantity(db.cart, IdIs(x.id), n)))
      case None =>
        var row := CartItem(db.nextCartId, e, productId.value, q, now);
        (Ok(row), db.(cart := db.cart + [row], nextCartId := db.nextCartId + 1))
  }

  /** PUT: set the quantity of the caller's row with the given id; no lower
      bound is enforced. The body is the first updated row. When no row
      matches, the update returns no row and `NextResponse.json(undefined)`
      throws inside the handler's `try`, so the reply is the 500 of its
      `catch`; nothing was written. */
  function Update(db: Db, caller: Option<ClerkUser>, id: Option<int>, quantity: Option<int>)
    : (r: (Response<CartItem>, Db))
    ensures SignedInEmail(caller).None? ==> r == (Fail(401, "Unauthorized"), db)
    ensures SignedInEmail(caller).Some? && (!PresentInt(id) || quantity.None?) ==>
      r == (Fail(400, "Cart item ID and quantity are required"), db)
    ensures SignedInEmail(caller).Some? && PresentInt(id) && quantity.Some? ==>
      var e := SignedInEmail(caller).value;
      && (r.0.Ok? <==> exists k :: 0 <= k < |db.cart| && db.cart[k].id == id.value && db.cart[k].userEmail == e)
      && (r.0.Fail? ==> r == (Fail(500, "Failed to update cart"), db))
      && r.1 == db.(cart := r.1.cart)
      && |r.1.cart| == |db.cart|
      && (forall k :: 0 <= k < |db.cart| ==>
            r.1.cart[k] == if db.cart[k].id == id.value && db.cart[k].userEmail == e
                           then db.cart[k].(quantity := quantity.value) else db.cart[k])
      && (r.0.Ok? ==>
            r.0.body.quantity == quantity.value && r.0.body.userEmail == e && r.0.body.id == id.value
            && r.0.body in r.1.cart)
  {
    var email := SignedInEmail(caller);
    if email.None? then (Fail(401, "Unauthorized"), db)
    else if !PresentInt(id) || quantity.None? then (Fail(400, "Cart item ID and quantity are required"), db)
    else
      var e := email.value;
      var first := FindRow(db.cart, id.value, e);
      if first.None? then (Fail(500, "Failed to update cart"), db)
      else
        var cart' := SetQuantity(db.cart, RowOf(id.value, e), quantity.value);
        assert exists k :: 0 <= k < |db.cart| && db.cart[k] == first.value;
        (Ok(first.value.(quantity := quantity.value)), db.(cart := cart'))
  }

  /** The cart without `email`'s rows. */
  function ClearOwner(cart: seq<CartItem>, email: string): (r: seq<CartItem>)
    ensures forall c :: c in r <==> c in cart && c.userEmail != email
  {
    Where(cart, NotOwnedBy(email))
  }

  /** DELETE: with `clearAll` (the query parameter is the string "true")
      every row of the caller goes; otherwise the caller's row with the
      given id goes. Rows of other users never change. */
  function Delete(db: Db, caller: Option<ClerkUser>, id: Option<int>, clearAll: bool)
    : (r: (Response<string>, Db))
    ensures SignedInEmail(caller).None? ==> r == (Fail(401, "Unauthorized"), db)
    ensures SignedInEmail(caller).Some? && clearAll ==>
      var e := SignedInEmail(caller).value;
      && r.0 == Ok("Cart cleared successfully")
      && r.1 == db.(cart := r.1.cart)
      && (forall c :: c in r.1.cart <==> c in db.cart && c.userEmail != e)
    ensures SignedInEmail(caller).Some? && !clearAll && id.None? ==>
      r == (Fail(400, "Cart item ID is required"), db)
    ensures SignedInEmail(caller).Some? && !clearAll && id.Some? ==>
      var e := SignedInEmail(caller).value;
      && r.0 == Ok("Item removed from cart")
      && r.1 == db.(cart := r.1.cart)
      && (forall c :: c in r.1.cart <==> c in db.cart && !(c.id == id.value && c.userEmail == e))
    ensures SignedInEmail(caller).Some? ==>
      forall c :: c in db.cart && Some(c.userEmail) != SignedInEmail(caller) ==> c in r.1.cart
  {
    var email := SignedInEmail(caller);
    if email.None? then (Fail(401, "Unauthorized"), db)
    else
      var e := email.value;
      if clearAll then (Ok("Cart cleared successfully"), db.(cart := ClearOwner(db.cart, e)))
      else if id.None? then (Fail(400, "Cart item ID is required"), db)
      else (Ok("Item removed from cart"), db.(cart := Where(db.cart, NotRowOf(id.value, e))))
  }

  // ---------------------------------------------------------------------
  // The cart as a bag of products per owner.

  /** Total quantity `email` holds of `productId` across cart rows. */
  function Held(cart: seq<CartItem>, email: string, productId: int): int {
    if cart == [] then 0
    else
      var here := if cart[0].userEmail == email && cart[0].productId == productId then cart[0].quantity else 0;
      here + Held(cart[1..], email, productId)
  }

  /** At most one row per (owner, product), distinct ids, ids below the counter. */
  predicate CartWf(cart: seq<CartItem>, nextId: int) {
    && (forall i, j :: 0 <= i < j < |cart| ==> cart[i].id != cart[j].id)
    && (forall i, j :: 0 <= i < j < |cart| ==>
          !(cart[i].userEmail == cart[j].userEmail && cart[i].productId == cart[j].productId))
    && (forall i :: 0 <= i < |cart| ==> cart[i].id < nextId)
  }

  lemma {:induction false} HeldAppend(cart: seq<CartItem>, row: CartItem, email: string, productId: int)
    ensures Held(cart + [row], email, productId)
      == Held(cart, email, productId) + (if row.userEmail == email && row.productId == productId then row.quantity else 0)
    decreases |cart|
  {
    if cart != [] {
      assert (cart + [row])[1..] == cart[1..] + [row];
      HeldAppend(cart[1..], row, email, productId);
    } else {
      assert (cart + [row])[1..] == [];
    }
  }

  /** Raising the quantity of the one row with `x`'s id moves exactly `x`'s
      (owner, product) holding, when ids are distinct. */
  lemma {:induction false} HeldSetQuantity(cart: seq<CartItem>, x: CartItem, n: int, email: string, productId: int)
    requires forall i, j :: 0 <= i < j < |cart| ==> cart[i].id != cart[j].id
    requires x in cart
    ensures Held(SetQuantity(cart, IdIs(x.id), n), email, productId)
      == Held(cart, email, productId)
         + (if x.userEmail == email && x.productId == productId then n - x.quantity else 0)
    decreases |cart|
  {
    var hit := IdIs(x.id);
    var r := SetQuantity(cart, hit, n);
    assert r[1..] == SetQuantity(cart[1..], hit, n);
    if cart[0] == x {
      assert forall k :: 0 <= k < |cart[1..]| ==> !hit(cart[1..][k]);
      HeldUntouched(cart[1..], hit, n, email, productId);
    } else {
      HeldSetQuantity(cart[1..], x, n, email, productId);
    }
  }

  lemma {:induction false} HeldUntouched(cart: seq<CartItem>, hit: CartItem -> bool, n: int, email: string, productId: int)
    requires forall k :: 0 <= k < |cart| ==> !hit(cart[k])
    ensures Held(SetQuantity(cart, hit, n), email, productId) == Held(cart, email, productId)
    decreases |cart|
  {
    if cart != [] {
      assert SetQuantity(cart, hit, n)[1..] == SetQuantity(cart[1..], hit, n);
      HeldUntouched(cart[1..], hit, n, email, productId);
    }
  }

  /** Adding `q` of a product raises the caller's holding of that product by
      exactly `q` and leaves every other (owner, product) holding alone; the
      well-formedness of the cart (one row per owner and product) is kept. */
  lemma AddHolding(db: Db, caller: Option<ClerkUser>, productId: Option<int>, quantity: Option<int>, now: nat,
                   email: string, pid: int)
    requires CartWf(db.cart, db.nextCartId)
    requires SignedInEmail(caller).Some? && PresentInt(productId)
    ensures var db' := Add(db, caller, productId, quantity, now).1;
      && CartWf(db'.cart, db'.nextCartId)
      && Held(db'.cart, email, pid) == Held(db.cart, email, pid)
         + (if email == SignedInEmail(caller).value && pid == productId.value then quantity.GetOr(1) else 0)
  {
    AddKeepsWf(db, caller, productId, quantity, now);
    var e := SignedInEmail(caller).value;
    var q := quantity.GetOr(1);
    var db' := Add(db, caller, productId, quantity, now).1;
    match FindCartRow(db.cart, e, productId.value)
    case Some(x) =>
      HeldSetQuantity(db.cart, x, x.quantity + q, email, pid);
    case None =>
      var row := CartItem(db.nextCartId, e, productId.value, q, now);
      HeldAppend(db.cart, row, email, pid);
      assert db'.cart == db.cart + [row];
  }

  /** Adding to the cart keeps one row per id and per (owner, product). */
  lemma AddKeepsWf(db: Db, caller: Option<ClerkUser>, productId: Option<int>, quantity: Option<int>, now: nat)
    requires CartWf(db.cart, db.nextCartId)
    ensures var db' := Add(db, caller, productId, quantity, now).1;
      CartWf(db'.cart, db'.nextCartId)
  {
    if SignedInEmail(caller).Some? && PresentInt(productId) {
      var e := SignedInEmail(caller).value;
      var db' := Add(db, caller, productId, quantity, now).1;
      match FindCartRow(db.cart, e, productId.value)
      case Some(x) =>
      case None =>
        var row := CartItem(db.nextCartId, e, productId.value, quantity.GetOr(1), now);
        assert db'.cart == db.cart + [row];
        assert forall i :: 0 <= i < |db.cart| ==> db'.cart[i] == db.cart[i];
        assert db'.cart[|db.cart|] == row;
    }
  }

  lemma {:induction false} WhereKeepsWf(cart: seq<CartItem>, keep: CartItem -> bool, nextId: int)
    requires CartWf(cart, nextId)
    ensures CartWf(Where(cart, keep), nextId)
    decreases |cart|
  {
    if cart != [] {
      assert CartWf(cart[1..], nextId);
      WhereKeepsWf(cart[1..], keep, nextId);
      var rest := Where(cart[1..], keep);
      if keep(cart[0]) {
        var r := [cart[0]] + rest;
        forall j | 0 < j < |r|
          ensures r[0].id != r[j].id
          ensures !(r[0].userEmail == r[j].userEmail && r[0].productId == r[j].productId)
        {
          assert r[j] in rest;
          assert r[j] in cart[1..];
        }
      }
    }
  }

  /** Clearing a cart twice is the same as clearing it once. */
  lemma ClearIdempotent(db: Db, caller: Option<ClerkUser>, id: Option<int>, id2: Option<int>)
    requires SignedInEmail(caller).Some?
    ensures var once := Delete(db, caller, id, true).1;
      Delete(once, caller, id2, true).1 == once
  {
    var e := SignedInEmail(caller).value;
    WhereTwice(db.cart, NotOwnedBy(e));
  }

  /** Every route other than add keeps at most one row per (owner, product). */
  lemma UpdateDeleteKeepWf(db: Db, caller: Option<ClerkUser>, id: Option<int>, quantity: Option<int>, clearAll: bool)
    requires CartWf(db.cart, db.nextCartId)
    ensures var u := Update(db, caller, id, quantity).1; CartWf(u.cart, u.nextCartId)
    ensures var d := Delete(db, caller, id, clearAll).1; CartWf(d.cart, d.nextCartId)
  {
    UpdateKeepsWf(db, caller, id, quantity);
    DeleteKeepsWf(db, caller, id, clearAll);
  }

  /** A quantity change writes no id, owner or product. */
  lemma UpdateKeepsWf(db: Db, caller: Option<ClerkUser>, id: Option<int>, quantity: Option<int>)
    requires CartWf(db.cart, db.nextCartId)
    ensures var u := Update(db, caller, id, quantity).1; CartWf(u.cart, u.nextCartId)
  {
    var u := Update(db, caller, id, quantity).1;
    assert |u.cart| == |db.cart| && u.nextCartId == db.nextCartId;
    assert forall k :: 0 <= k < |u.cart| ==>
      u.cart[k].id == db.cart[k].id && u.cart[k].userEmail == db.cart[k].userEmail
      && u.cart[k].productId == db.cart[k].productId;
  }

  /** Deleting rows keeps the rest well formed. */
  lemma DeleteKeepsWf(db: Db, caller: Option<ClerkUser>, id: Option<int>, clearAll: bool)
    requires CartWf(db.cart, db.nextCartId)
    ensures var d := Delete(db, caller, id, clearAll).1; CartWf(d.cart, d.nextCartId)
  {
    var e := SignedInEmail(caller);
    if e.Some? {
      WhereKeepsWf(db.cart, NotOwnedBy(e.value), db.nextCartId);
      if id.Some? {
        WhereKeepsWf(db.cart, NotRowOf(id.value, e.value), db.nextCartId);
      }
    }
  }
}

=== FILE: cart_context.dfy ===
/** The browser-side cart state (src/contexts/CartContext.jsx). Each action
    returns the new item list and the requests it sent to the cart store.
    The outcome of each request is a parameter: `ok` says whether the
    request succeeded, and `fetched` is the list a refetch produced (the
    server's list, or empty when the refetch failed). */
module CartContext {
  import opened Common
  import opened Schema
  import CartApi

  /** One item as the client holds it; `quantity` may be missing. */
  datatype ClientItem = ClientItem(id: int, productId: int, quantity: Option<int>)

  /** A request to the cart store. A `None` quantity is the NaN that
      `undefined + 1` yields. */
  datatype Call =
    | GetCart
    | PostCart(productId: int, count: int)
    | PutCart(id: int, quantity: Option<int>)
    | DeleteItem(id: int)
    | DeleteAll

  datatype Step = Step(items: seq<ClientItem>, calls: seq<Call>)

  /** `item => item.id !== id`. */
  function IdIsNot(id: int): ClientItem -> bool {
    (x: ClientItem) => x.id != id
  }

  /** `items.filter(item => item.id !== id)`. */
  function WithoutId(items: seq<ClientItem>, id: int): (r: seq<ClientItem>)
    ensures forall x :: x in r <==> x in items && x.id != id
  {
    Where(items, IdIsNot(id))
  }

  /** `items.map(item => item.id === id ? {...item, quantity: q} : item)`. */
  function SetQuantity(items: seq<ClientItem>, id: int, q: Option<int>): (r: seq<ClientItem>)
    ensures |r| == |items|
    ensures forall k :: 0 <= k < |r| ==> r[k] == if items[k].id == id then items[k].(quantity := q) else items[k]
  {
    seq(|items|, k requires 0 <= k < |items| => if items[k].id == id then items[k].(quantity := q) else items[k])
  }

  /** `removeFromCart`: DELETE the row; on success drop every item with that id. */
  function RemoveFromCart(items: seq<ClientItem>, id: int, ok: bool): (r: Step)
    ensures r.calls == [DeleteItem(id)]
    ensures !ok ==> r.items == items
    ensures ok ==> forall x :: x in r.items <==> x in items && x.id != id
  {
    Step(if ok then WithoutId(items, id) else items, [DeleteItem(id)])
  }

  /** `newQuantity < 1` (false for NaN). */
  predicate BelowOne(q: Option<int>) {
    q.Some? && q.value < 1
  }

  /** `updateQuantity`: a quantity below one removes the item instead;
      otherwise PUT the quantity, and on success change only the matching
      items, on failure refetch. */
  function UpdateQuantity(items: seq<ClientItem>, id: int, q: Option<int>, ok: bool, fetched: seq<ClientItem>)
    : (r: Step)
    ensures BelowOne(q) ==> r == RemoveFromCart(items, id, ok)
    ensures !BelowOne(q) ==> |r.calls| > 0 && r.calls[0] == PutCart(id, q)
    ensures !BelowOne(q) && ok ==>
      && r.calls == [PutCart(id, q)]
      && |r.items| == |items|
      && (forall k :: 0 <= k < |items| && items[k].id != id ==> r.items[k] == items[k])
      && (forall k :: 0 <= k < |items| && items[k].id == id ==>
            r.items[k].quantity == q && r.items[k].id == id && r.items[k].productId == items[k].productId)
    ensures !BelowOne(q) && !ok ==> r == Step(fetched, [PutCart(id, q), GetCart])
  {
    if BelowOne(q) then RemoveFromCart(items, id, ok)
    else if ok then Step(SetQuantity(items, id, q), [PutCart(id, q)])
    else Step(fetched, [PutCart(id, q), GetCart])
  }

  /** The first item for the product. */
  function FindByProduct(items: seq<ClientItem>, productId: int): (r: Option<ClientItem>)
    ensures r.Some? ==> r.value in items && r.value.productId == productId
    ensures r.None? <==> forall k :: 0 <= k < |items| ==> items[k].productId != productId
  {
    First(items, ForProduct(productId))
  }

  function ForProduct(productId: int): ClientItem -> bool {
    (x: ClientItem) => x.productId == productId
  }

  /** `existingItem.quantity + 1`: NaN when the quantity is missing. */
  function PlusOne(q: Option<int>): Option<int> {
    if q.Some? then Some(q.value + 1) else None
  }

  /** `addToCart`: nothing happens for a signed-out user or a product without
      an id; a product already in the cart goes through `updateQuantity` with
      one more; otherwise POST one unit and, on success, take the refetched list. */
  function AddToCart(signedIn: bool, items: seq<ClientItem>, productId: Option<int>, ok: bool, fetched: seq<ClientItem>)
    : (r: Step)
    ensures !signedIn || !PresentInt(productId) ==> r == Step(items, [])
    // A product not in the list: POST one unit, then take the refetched list.
    ensures signedIn && PresentInt(productId) && (forall k :: 0 <= k < |items| ==> items[k].productId != productId.value) ==>
      && |r.calls| > 0 && r.calls[0] == PostCart(productId.value, 1)
      && r.calls == (if ok then [PostCart(productId.value, 1), GetCart] else [PostCart(productId.value, 1)])
      && r.items == (if ok then fetched else items)
    // A product already held as item `x`: its quantity goes up by one (NaN
    // when missing); a result below one removes the item instead.
    ensures signedIn && PresentInt(productId) && FindByProduct(items, productId.value).Some? ==>
      var x := FindByProduct(items, productId.value).value;
      var q := if x.quantity.Some? then Some(x.quantity.value + 1) else None;
      && (q.Some? && q.value < 1 ==>
            && r.calls == [DeleteItem(x.id)]
            && (ok ==> forall y :: y in r.items <==> y in items && y.id != x.id)
            && (!ok ==> r.items == items))
      && (!(q.Some? && q.value < 1) && ok ==>
            && r.calls == [PutCart(x.id, q)]
            && |r.items| == |items|
            && forall k :: 0 <= k < |items| ==>
                 r.items[k] == if items[k].id == x.id then items[k].(quantity := q) else items[k])
      && (!(q.Some? && q.value < 1) && !ok ==> r == Step(fetched, [PutCart(x.id, q), GetCart]))
  {
    if !signedIn || !PresentInt(productId) then Step(items, [])
    else
      match FindByProduct(items, productId.value)
      case Some(x) => UpdateQuantity(items, x.id, PlusOne(x.quantity), ok, fetched)
      case None =>
        if ok then Step(fetched, [PostCart(productId.value, 1), GetCart])
        else Step(items, [PostCart(productId.value, 1)])
  }

  /** `clearCart`: DELETE with clearAll; on success the list is empty. */
  function ClearCart(items: seq<ClientItem>, ok: bool): (r: Step)
    ensures r.calls == [DeleteAll]
    ensures ok ==> r.items == []
    ensures !ok ==> r.items == items
  {
    if ok then Step([], [DeleteAll]) else Step(items, [DeleteAll])
  }

  /** A successful clear agrees with the server: the list the context keeps
      is empty and counts zero, and after the DELETE with clearAll the
      server's GET holds no row for the caller either. */
  lemma ClearAgreesWithServer(items: seq<ClientItem>, db: Db, caller: Option<ClerkUser>, id: Option<int>)
    requires SignedInEmail(caller).Some?
    ensures CartCount(ClearCart(items, true).items) == 0
    ensures var db1 := CartApi.Delete(db, caller, id, true).1;
      ClearCart(items, true).items == [] && CartApi.Get(db1, caller).body == []
  {
    var e := SignedInEmail(caller).value;
    var db1 := CartApi.Delete(db, caller, id, true).1;
    var keep := Joinable(db1.products, e);
    assert forall k :: 0 <= k < |db1.cart| ==> !keep(db1.cart[k]) by {
      forall k | 0 <= k < |db1.cart| ensures !keep(db1.cart[k]) {
        assert db1.cart[k] in db1.cart;
      }
    }
    WhereNone(db1.cart, keep);
    assert |RowsOf(JoinCart(db1.cart, db1.products, e))| == 0;
  }

  /** `cartItems.reduce((count, item) => count + (item.quantity || 0), acc)`:
      the fold from the left, as `getCartCount` runs it. */
  function CountFrom(acc: int, items: seq<ClientItem>): int
    decreases |items|
  {
    if items == [] then acc else CountFrom(acc + items[0].quantity.GetOr(0), items[1..])
  }

  /** Folding from any start adds the start to the fold from zero. */
  lemma {:induction false} CountFromShift(acc: int, items: seq<ClientItem>)
    ensures CountFrom(acc, items) == acc + CountFrom(0, items)
    decreases |items|
  {
    if items != [] {
      var q := items[0].quantity.GetOr(0);
      CountFromShift(acc + q, items[1..]);
      CountFromShift(q, items[1..]);
    }
  }

  /** `getCartCount`: the sum of quantities, a missing one counting as 0. */
  function CartCount(items: seq<ClientItem>): (c: int)
    ensures c == CountFrom(0, items)
  {
    if items == [] then 0
    else
      CountFromShift(items[0].quantity.GetOr(0), items[1..]);
      items[0].quantity.GetOr(0) + CartCount(items[1..])
  }

  /** With no negative quantity the count is not negative, and it is at
      least the number of items when each has at least one unit. */
  lemma {:induction false} CartCountBounds(items: seq<ClientItem>)
    ensures (forall k :: 0 <= k < |items| ==> items[k].quantity.GetOr(0) >= 0) ==> CartCount(items) >= 0
    ensures (forall k :: 0 <= k < |items| ==> items[k].quantity.GetOr(0) >= 1) ==> CartCount(items) >= |items|
    decreases |items|
  {
    if items != [] {
      CartCountBounds(items[1..]);
      assert forall k :: 0 <= k < |items[1..]| ==> items[1..][k] == items[k + 1];
    }
  }

  /** With distinct ids, adding a product already held with a quantity
      raises the count by exactly one. */
  lemma {:induction false} AddHeldCount(signedIn: bool, items: seq<ClientItem>, productId: Option<int>, ok: bool, fetched: seq<ClientItem>)
    requires signedIn && ok && PresentInt(productId)
    requires forall i, j :: 0 <= i < j < |items| ==> items[i].id != items[j].id
    requires FindByProduct(items, productId.value).Some?
    requires FindByProduct(items, productId.value).value.quantity.GetOr(-1) >= 0
    ensures CartCount(AddToCart(signedIn, items, productId, ok, fetched).items) == CartCount(items) + 1
  {
    var x := FindByProduct(items, productId.value).value;
    var n := x.quantity.value;
    AddHeldSets(signedIn, items, productId, ok, fetched);
    assert x in items;
    OneWithId(items, x);
    UpdateCount(items, x.id, n + 1);
    assert (n + 1) * Occurrences(items, x.id) == n + 1;
  }

  /** A successful add of a held product sets the held item's quantity. */
  lemma AddHeldSets(signedIn: bool, items: seq<ClientItem>, productId: Option<int>, ok: bool, fetched: seq<ClientItem>)
    requires signedIn && ok && PresentInt(productId)
    requires FindByProduct(items, productId.value).Some?
    requires FindByProduct(items, productId.value).value.quantity.GetOr(-1) >= 0
    ensures var x := FindByProduct(items, productId.value).value;
      AddToCart(signedIn, items, productId, ok, fetched).items == SetQuantity(items, x.id, Some(x.quantity.value + 1))
  {
  }

  /** With distinct ids, an item is the only one carrying its id. */
  lemma {:induction false} OneWithId(items: seq<ClientItem>, x: ClientItem)
    requires forall i, j :: 0 <= i < j < |items| ==> items[i].id != items[j].id
    requires x in items
    ensures Occurrences(items, x.id) == 1
    ensures CountOf(items, x.id) == x.quantity.GetOr(0)
    decreases |items|
  {
    var rest := items[1..];
    if items[0] == x {
      assert forall k :: 0 <= k < |rest| ==> rest[k] == items[k + 1];
      NoneWithId(rest, x.id);
    } else {
      assert x in rest;
      OneWithId(rest, x);
    }
  }

  /** An id no item carries counts for nothing. */
  lemma {:induction false} NoneWithId(items: seq<ClientItem>, id: int)
    requires forall k :: 0 <= k < |items| ==> items[k].id != id
    ensures Occurrences(items, id) == 0 && CountOf(items, id) == 0
    decreases |items|
  {
    if items != [] {
      NoneWithId(items[1..], id);
    }
  }

  /** The count of the items carrying a given id. */
  function CountOf(items: seq<ClientItem>, id: int): int {
    if items == [] then 0
    else (if items[0].id == id then items[0].quantity.GetOr(0) else 0) + CountOf(items[1..], id)
  }

  /** Number of items carrying a given id. */
  function Occurrences(items: seq<ClientItem>, id: int): nat {
    if items == [] then 0 else (if items[0].id == id then 1 else 0) + Occurrences(items[1..], id)
  }

  /** A successful removal lowers the count by exactly what the removed
      items contributed. */
  lemma {:induction false} RemoveCount(items: seq<ClientItem>, id: int)
    ensures CartCount(WithoutId(items, id)) == CartCount(items) - CountOf(items, id)
    decreases |items|
  {
    if items != [] {
      RemoveCount(items[1..], id);
    }
  }

  /** A successful quantity change moves the count by the difference on each
      matching item. */
  lemma {:induction false} UpdateCount(items: seq<ClientItem>, id: int, q: int)
    ensures CartCount(SetQuantity(items, id, Some(q)))
      == CartCount(items) - CountOf(items, id) + q * Occurrences(items, id)
    decreases |items|
  {
    if items != [] {
      assert SetQuantity(items, id, Some(q))[1..] == SetQuantity(items[1..], id, Some(q));
      UpdateCount(items[1..], id, q);
    }
  }

  /** A successful removal preserves the order of the remaining items. */
  lemma RemoveKeepsOrder(before: seq<ClientItem>, after: seq<ClientItem>, id: int)
    ensures WithoutId(before + after, id) == WithoutId(before, id) + WithoutId(after, id)
  {
    WhereAppend(before, after, IdIsNot(id));
  }
}

=== FILE: categories.dfy ===
/** Admin category management (src/app/api/admin/categories/route.jsx):
    create, partial update and delete, each behind the admin gate. */
module Categories {
  import opened Common
  import opened Schema
  import AdminAuth

  /** The fields of a PUT body. The outer `None` is a field the body leaves
      out (`undefined`); `Some(None)` is an explicit `null`. */
  datatype Patch = Patch(
    name: Option<Option<string>>, description: Option<Option<string>>,
    icon: Option<Option<string>>, isActive: Option<bool>)

  /** The body names no field, so `updateData` is `{}`. */
  predicate EmptyPatch(p: Patch) {
    p.name.None? && p.description.None? && p.icon.None? && p.isActive.None?
  }

  /** The row after `SET updateData`: exactly the fields the body names change. */
  function Apply(c: Category, p: Patch): (r: Category)
    ensures r.id == c.id
    ensures r.name == (if p.name.Some? then p.name.value else c.name)
    ensures r.description == (if p.description.Some? then p.description.value else c.description)
    ensures r.icon == (if p.icon.Some? then p.icon.value else c.icon)
    ensures r.isActive == (if p.isActive.Some? then p.isActive.value else c.isActive)
  {
    Category(c.id, p.name.GetOr(c.name), p.description.GetOr(c.description), p.icon.GetOr(c.icon),
             p.isActive.GetOr(c.isActive))
  }

  /** Applying the same patch twice is applying it once. */
  lemma ApplyTwice(c: Category, p: Patch)
    ensures Apply(Apply(c, p), p) == Apply(c, p)
  {
  }

  /** POST /api/admin/categories: a new active category. */
  function Create(db: Db, caller: Option<ClerkUser>, name: Option<string>, description: Option<string>,
                  icon: Option<string>): (r: (Response<Category>, Db))
    ensures !AdminAuth.IsAdmin(db, caller) ==> r == (Fail(403, "Unauthorized"), db)
    ensures AdminAuth.IsAdmin(db, caller) ==>
      && r.0 == Ok(Category(db.nextCategoryId, name, description, icon, true))
      && r.1 == db.(categories := db.categories + [r.0.body], nextCategoryId := db.nextCategoryId + 1)
  {
    if !AdminAuth.IsAdmin(db, caller) then (Fail(403, "Unauthorized"), db)
    else
      var c := Category(db.nextCategoryId, name, description, icon, true);
      (Ok(c), db.(categories := db.categories + [c], nextCategoryId := db.nextCategoryId + 1))
  }

  /** PUT /api/admin/categories: the rows with the id take the patch; other
      rows do not change. A body naming no field makes the update statement
      fail, which the handler reports as 500. */
  function Update(db: Db, caller: Option<ClerkUser>, id: int, patch: Patch): (r: (Response<Done>, Db))
    ensures !AdminAuth.IsAdmin(db, caller) ==> r == (Fail(403, "Unauthorized"), db)
    ensures AdminAuth.IsAdmin(db, caller) && EmptyPatch(patch) ==>
      r == (Fail(500, "Failed to update category"), db)
    ensures r.0.Ok? <==> AdminAuth.IsAdmin(db, caller) && !EmptyPatch(patch)
    ensures r.0.Ok? ==>
      && |r.1.categories| == |db.categories|
      && (forall k :: 0 <= k < |db.categories| ==>
            r.1.categories[k] == if db.categories[k].id == id then Apply(db.categories[k], patch)
                                 else db.categories[k])
      && r.1 == db.(categories := r.1.categories)
  {
    if !AdminAuth.IsAdmin(db, caller) then (Fail(403, "Unauthorized"), db)
    else if EmptyPatch(patch) then (Fail(500, "Failed to update category"), db)
    else
      var cs := seq(|db.categories|, k requires 0 <= k < |db.categories| =>
        if db.categories[k].id == id then Apply(db.categories[k], patch) else db.categories[k]);
      (Ok(Success), db.(categories := cs))
  }

  /** Repeating a successful update changes nothing more. */
  lemma UpdateIdempotent(db: Db, caller: Option<ClerkUser>, id: int, patch: Patch)
    requires Update(db, caller, id, patch).0.Ok?
    ensures var db1 := Update(db, caller, id, patch).1;
      Update(db1, caller, id, patch) == (Ok(Success), db1)
  {
    var db1 := Update(db, caller, id, patch).1;
    assert db1.users == db.users;
    var db2 := Update(db1, caller, id, patch).1;
    forall k | 0 <= k < |db.categories| && db.categories[k].id == id
      ensures db2.categories[k] == db1.categories[k]
    {
      ApplyTwice(db.categories[k], patch);
    }
    assert db2.categories == db1.categories;
  }

  /** A created category takes a fresh id, so deleting that id straight
      afterwards removes exactly the new row: the table is as it was and only
      the id counter has moved on. */
  lemma CreateThenDelete(db: Db, caller: Option<ClerkUser>, name: Option<string>,
                         description: Option<string>, icon: Option<string>)
    requires AdminAuth.IsAdmin(db, caller)
    requires forall k :: 0 <= k < |db.categories| ==> db.categories[k].id < db.nextCategoryId
    ensures var (r, db1) := Create(db, caller, name, description, icon);
      && r.Ok?
      && Delete(db1, caller, Some(r.body.id)) == (Ok(Success), db.(nextCategoryId := db.nextCategoryId + 1))
  {
    var c := Category(db.nextCategoryId, name, description, icon, true);
    var db1 := db.(categories := db.categories + [c], nextCategoryId := db.nextCategoryId + 1);
    assert Create(db, caller, name, description, icon) == (Ok(c), db1);
    assert AdminAuth.IsAdmin(db1, caller) by { assert db1.users == db.users; }
    var keep := CategoryIdIsNot(c.id);
    WhereAppend(db.categories, [c], keep);
    assert Where([c], keep) == [];
    WhereAll(db.categories, keep);
    assert Where(db1.categories, keep) == db.categories;
  }

  function CategoryIdIsNot(id: int): Category -> bool {
    (c: Category) => c.id != id
  }

  /** DELETE /api/admin/categories?id=: removes the rows with the id and
      nothing else; a missing id is 400. */
  function Delete(db: Db, caller: Option<ClerkUser>, id: Option<int>): (r: (Response<Done>, Db))
    ensures !AdminAuth.IsAdmin(db, caller) ==> r == (Fail(403, "Unauthorized"), db)
    ensures AdminAuth.IsAdmin(db, caller) && id.None? ==> r == (Fail(400, "Category ID required"), db)
    ensures r.0.Ok? <==> AdminAuth.IsAdmin(db, caller) && id.Some?
    ensures r.0.Ok? ==>
      && (forall c :: c in r.1.categories <==> c in db.categories && c.id != id.value)
      && r.1 == db.(categories := r.1.categories)
  {
    if !AdminAuth.IsAdmin(db, caller) then (Fail(403, "Unauthorized"), db)
    else if id.None? then (Fail(400, "Category ID required"), db)
    else (Ok(Success), db.(categories := Where(db.categories, CategoryIdIsNot(id.value))))
  }
}

=== FILE: checkout.dfy ===
/** Checkout construction (src/app/api/checkout/route.jsx): the caller's
    joined cart becomes the line items of a hosted payment session, and the
    session's metadata records the buyer and a snapshot of the cart. The
    session itself is created by the payment processor: the handler's
    request to it is the result here, and the processor's reply (session id
    and redirect URL) is a parameter. */
module Checkout {
  import opened Common
  import opened Schema
  import Snapshot

  /** One `line_items` element: `price_data` flattened, amounts in cents. */
  datatype LineItem = LineItem(
    currency: string, name: string, description: string, images: seq<string>,
    unitAmount: int, quantity: int)

  /** The parameters the handler passes to the processor's session creation. */
  datatype SessionParams = SessionParams(
    lineItems: seq<LineItem>, successUrl: string, cancelUrl: string, customerEmail: string,
    metadataUserEmail: string, metadataCartItems: string)

  /** The processor's reply: the new session's id and its checkout URL. */
  datatype CreatedSession = CreatedSession(id: string, url: string)

  /** Longest product description a line item carries. */
  const DescriptionLimit: nat := 100

  /** `s.substring(0, n)`. */
  function Truncate(s: string, n: nat): (r: string)
    ensures r <= s
    ensures |r| == if |s| <= n then |s| else n
  {
    if |s| <= n then s else s[..n]
  }

  /** The line item for one joined cart row. */
  function ToLineItem(line: CartLine): LineItem {
    LineItem("usd", line.product.title, Truncate(line.product.description, DescriptionLimit),
             [line.product.imageUrl], line.product.price, line.item.quantity)
  }

  /** `line_items`: one per joined cart row, in the rows' order, charging the
      product's price for the row's quantity. */
  function LineItems(lines: seq<CartLine>): (items: seq<LineItem>)
    ensures |items| == |lines|
    ensures forall k :: 0 <= k < |lines| ==>
      && items[k].quantity == lines[k].item.quantity
      && items[k].unitAmount == lines[k].product.price
      && items[k].name == lines[k].product.title
      && items[k].currency == "usd"
      && items[k].description == Truncate(lines[k].product.description, DescriptionLimit)
      && items[k].images == [lines[k].product.imageUrl]
  {
    seq(|lines|, k requires 0 <= k < |lines| => ToLineItem(lines[k]))
  }

  /** `cartItems.map(item => ({id, productId, quantity}))`. */
  function SnapshotOf(lines: seq<CartLine>): (es: seq<Snapshot.Entry>)
    ensures |es| == |lines|
    ensures forall k :: 0 <= k < |es| ==>
      es[k] == Snapshot.Entry(lines[k].item.id, lines[k].item.productId, lines[k].item.quantity)
  {
    seq(|lines|, k requires 0 <= k < |lines| =>
      Snapshot.Entry(lines[k].item.id, lines[k].item.productId, lines[k].item.quantity))
  }

  /** The amount the processor charges for a session: unit amount times
      quantity, summed over the line items. */
  function AmountTotal(items: seq<LineItem>): int {
    if items == [] then 0 else items[0].unitAmount * items[0].quantity + AmountTotal(items[1..])
  }

  /** POST /api/checkout. Signed-out callers get 401, an empty joined cart
      400; otherwise one line item per joined cart row, in the rows' order, and a
      metadata snapshot the webhook parses back to exactly those rows. The
      tables are only read. */
  function CreateSession(db: Db, caller: Option<ClerkUser>, baseUrl: string, created: CreatedSession)
    : (r: (Response<CreatedSession>, Option<SessionParams>))
    ensures SignedInEmail(caller).None? ==> r == (Fail(401, "Unauthorized"), None)
    ensures SignedInEmail(caller).Some? && JoinCart(db.cart, db.products, SignedInEmail(caller).value) == [] ==>
      r == (Fail(400, "Cart is empty"), None)
    ensures r.1.Some? ==>
      var e := SignedInEmail(caller).value;
      var lines := JoinCart(db.cart, db.products, e);
      var p := r.1.value;
      && SignedInEmail(caller).Some? && |lines| > 0
      && r.0 == Ok(created)
      && p.customerEmail == e && p.metadataUserEmail == e
      && |p.lineItems| == |lines|
      && (forall k :: 0 <= k < |lines| ==>
            && p.lineItems[k].quantity == lines[k].item.quantity
            && p.lineItems[k].unitAmount == lines[k].product.price
            && p.lineItems[k].name == lines[k].product.title
            && p.lineItems[k].currency == "usd"
            && p.lineItems[k].description == Truncate(lines[k].product.description, DescriptionLimit)
            && p.lineItems[k].images == [lines[k].product.imageUrl])
      && Snapshot.Parse(p.metadataCartItems) == Some(SnapshotOf(lines))
      && p.successUrl == baseUrl + "/checkout/success?session_id={CHECKOUT_SESSION_ID}"
      && p.cancelUrl == baseUrl + "/cart"
    ensures SignedInEmail(caller).Some? && JoinCart(db.cart, db.products, SignedInEmail(caller).value) != [] ==>
      r.1.Some?
  {
    var email := SignedInEmail(caller);
    if email.None? then (Fail(401, "Unauthorized"), None)
    else
      var e := email.value;
      var lines := JoinCart(db.cart, db.products, e);
      if lines == [] then (Fail(400, "Cart is empty"), None)
      else
        var items := LineItems(lines);
        var snapshot := SnapshotOf(lines);
        Snapshot.ParseSerialize(snapshot);
        var params := SessionParams(
          items,
          baseUrl + "/checkout/success?session_id={CHECKOUT_SESSION_ID}",
          baseUrl + "/cart",
          e, e, Snapshot.Serialize(snapshot));
        (Ok(created), Some(params))
  }
}

=== FILE: common.dfy ===
/** Shared vocabulary of the storefront's request handlers: optional values,
    HTTP replies, the signed-in identity and JavaScript truthiness. */
module Common {

  /** A value that may be absent (`undefined`/`null` in the handlers). */
  datatype Option<+T> = None | Some(value: T) {

    predicate IsFailure() {
      None?
    }

    function PropagateFailure<U>(): Option<U>
      requires None?
    {
      None
    }

    function Extract(): T
      requires Some?
    {
      value
    }

    function GetOr(default: T): T {
      match this
      case Some(v) => v
      case None => default
    }
  }

  /** A JSON reply of a route handler: a body with status 200, or an
      `{ error }` body with an error status. */
  datatype Response<+B> = Ok(body: B) | Fail(status: int, error: string) {

    function Status(): int {
      if Ok? then 200 else status
    }
  }

  /** The `{ success: true }` body of the admin write routes. */
  datatype Done = Success

  /** The user record the identity provider hands to a handler: the primary
      e-mail address and the display fields the handlers read. */
  datatype ClerkUser = ClerkUser(
    email: Option<string>,
    fullName: Option<string>,
    firstName: Option<string>,
    imageUrl: Option<string>)

  /** JavaScript truthiness of an optional string: present and non-empty. */
  predicate Present(s: Option<string>) {
    s.Some? && s.value != ""
  }

  /** JavaScript truthiness of an optional number: present and non-zero. */
  predicate PresentInt(n: Option<int>) {
    n.Some? && n.value != 0
  }

  /** `user?.primaryEmailAddress?.emailAddress` when it is truthy: the
      identity every cart, checkout and order route is scoped by. */
  function SignedInEmail(caller: Option<ClerkUser>): (r: Option<string>)
    ensures r.Some? <==> caller.Some? && Present(caller.value.email)
    ensures r.Some? ==> r.value != "" && r == caller.value.email
  {
    if caller.Some? && Present(caller.value.email) then caller.value.email else None
  }

  /** `user.primaryEmailAddress?.emailAddress` without the truthiness test,
      as the ticket routes read it. */
  function RawEmail(caller: Option<ClerkUser>): Option<string> {
    if caller.Some? then caller.value.email else None
  }
}

=== FILE: orders.dfy ===
/** Order materialisation on the redirect path (src/app/api/orders/create/route.jsx):
    the success page posts the payment session id, and the handler turns the
    caller's live cart into one order and its items, unless an order for
    that session already exists. The lookup and the inserts are separate
    statements, so this guard only holds for calls that do not overlap. */
module OrderCreate {
  import opened Common
  import opened Schema

  /** `{ message, order }`. */
  datatype OrderReply = OrderReply(message: string, order: Order)

  /** The order item lines of the joined cart: product, quantity and the
      product's current price. */
  function ItemLinesOf(lines: seq<CartLine>): (r: seq<ItemLine>)
    ensures |r| == |lines|
    ensures forall k :: 0 <= k < |r| ==>
      r[k] == ItemLine(lines[k].item.productId, lines[k].item.quantity, lines[k].product.price)
  {
    seq(|lines|, k requires 0 <= k < |lines| =>
      ItemLine(lines[k].item.productId, lines[k].item.quantity, lines[k].product.price))
  }

  /** The call inserts rows: a signed-in caller, a session id with no order
      yet, and a non-empty joined cart. */
  predicate Creates(db: Db, caller: Option<ClerkUser>, sessionId: Option<string>) {
    && SignedInEmail(caller).Some?
    && Present(sessionId)
    && FindOrder(db.orders, sessionId.value).None?
    && JoinCart(db.cart, db.products, SignedInEmail(caller).value) != []
  }

  /** POST /api/orders/create. `totalAmount` is the optional client-supplied
      total in cents; when it is missing or zero the total is computed from
      the cart. The cart is read, never changed. */
  function Create(db: Db, caller: Option<ClerkUser>, sessionId: Option<string>, totalAmount: Option<int>, now: nat)
    : (r: (Response<OrderReply>, Db))
    ensures SignedInEmail(caller).None? ==> r == (Fail(401, "Unauthorized"), db)
    ensures SignedInEmail(caller).Some? && !Present(sessionId) ==>
      r == (Fail(400, "Session ID is required"), db)
    ensures SignedInEmail(caller).Some? && Present(sessionId) && FindOrder(db.orders, sessionId.value).Some? ==>
      r == (Ok(OrderReply("Order already exists", FindOrder(db.orders, sessionId.value).value)), db)
    ensures (SignedInEmail(caller).Some? && Present(sessionId) && FindOrder(db.orders, sessionId.value).None?
             && JoinCart(db.cart, db.products, SignedInEmail(caller).value) == []) ==>
      r == (Fail(400, "No cart items found"), db)
    ensures !Creates(db, caller, sessionId) ==> r.1 == db
    ensures Creates(db, caller, sessionId) ==>
      && r.0.Ok? && r.0.body.message == "Order created successfully"
      && |r.1.orderItems| >= |db.orderItems|
    ensures Creates(db, caller, sessionId) && r.0.Ok? && |r.1.orderItems| >= |db.orderItems| ==>
      var e := SignedInEmail(caller).value;
      var sid := sessionId.value;
      var lines := ItemLinesOf(JoinCart(db.cart, db.products, e));
      var o := r.0.body.order;
      var added := r.1.orderItems[|db.orderItems|..];
      && o.userEmail == e && o.stripeSessionId == sid && o.status == "completed"
      && o.totalAmount == (if PresentInt(totalAmount) then totalAmount.value else LinesTotal(lines))
      && r.1.orders == db.orders + [o]
      && CountSession(r.1.orders, sid) == 1
      && |added| == |lines|
      && r.1.orderItems[..|db.orderItems|] == db.orderItems
      && (forall k :: 0 <= k < |added| ==>
            && added[k].orderId == o.id
            && added[k].productId == lines[k].productId
            && added[k].quantity == lines[k].quantity
            && added[k].price == lines[k].price)
      && (!PresentInt(totalAmount) ==> ItemsTotal(added) == o.totalAmount)
      && r.1.cart == db.cart
      && r.1 == db.(orders := r.1.orders, nextOrderId := r.1.nextOrderId,
                    orderItems := r.1.orderItems, nextOrderItemId := r.1.nextOrderItemId)
  {
    var email := SignedInEmail(caller);
    if email.None? then (Fail(401, "Unauthorized"), db)
    else if !Present(sessionId) then (Fail(400, "Session ID is required"), db)
    else
      var e := email.value;
      var sid := sessionId.value;
      match FindOrder(db.orders, sid)
      case Some(existing) => (Ok(OrderReply("Order already exists", existing)), db)
      case None =>
        var joined := JoinCart(db.cart, db.products, e);
        if joined == [] then (Fail(400, "No cart items found"), db)
        else
          var lines := ItemLinesOf(joined);
          var total := if PresentInt(totalAmount) then totalAmount.value else LinesTotal(lines);
          var o := Order(db.nextOrderId, e, sid, total, "completed", now);
          var added := NewItems(o.id, lines, db.nextOrderItemId);
          CountSessionAppend(db.orders, o, sid);
          NewItemsTotal(o.id, lines, db.nextOrderItemId);
          assert (db.orderItems + added)[|db.orderItems|..] == added;
          (Ok(OrderReply("Order created successfully", o)),
           db.(orders := db.orders + [o], nextOrderId := db.nextOrderId + 1,
               orderItems := db.orderItems + added, nextOrderItemId := db.nextOrderItemId + |added|))
  }
}

=== FILE: reconciliation.dfy ===
/** How the two order-materialisation paths behave when calls follow each
    other: the redirect path is idempotent per session, the webhook path is
    not, and an order rebuilt from the checkout snapshot reproduces the
    joined cart and the amount charged. Calls are sequential here; neither
    path is atomic, so overlapping calls are outside these statements. */
module Reconciliation {
  import opened Common
  import opened Schema
  import Snapshot
  import Checkout
  import OrderCreate
  import Webhook

  /** A second redirect call for a session that the first call answered
      successfully changes nothing and returns the same order, whoever the
      signed-in caller is. */
  lemma RedirectRepeatIsNoOp(db: Db, caller: Option<ClerkUser>, caller2: Option<ClerkUser>,
                             sid: string, t1: Option<int>, t2: Option<int>, n1: nat, n2: nat)
    requires SignedInEmail(caller2).Some?
    requires OrderCreate.Create(db, caller, Some(sid), t1, n1).0.Ok?
    ensures var (r1, db1) := OrderCreate.Create(db, caller, Some(sid), t1, n1);
      OrderCreate.Create(db1, caller2, Some(sid), t2, n2)
        == (Ok(OrderCreate.OrderReply("Order already exists", r1.body.order)), db1)
  {
    var (r1, db1) := OrderCreate.Create(db, caller, Some(sid), t1, n1);
    if FindOrder(db.orders, sid).None? {
      FindOrderAppend(db.orders, r1.body.order, sid);
    }
  }

  /** The redirect path never makes a second order for any session: if each
      session had at most one order before, it has at most one after. */
  lemma RedirectKeepsSessionsUnique(db: Db, caller: Option<ClerkUser>, sid: Option<string>,
                                    t: Option<int>, n: nat, s: string)
    requires CountSession(db.orders, s) <= 1
    ensures CountSession(OrderCreate.Create(db, caller, sid, t, n).1.orders, s) <= 1
  {
    var (r, db1) := OrderCreate.Create(db, caller, sid, t, n);
    if OrderCreate.Creates(db, caller, sid) {
      CountSessionAppend(db.orders, r.body.order, s);
    }
  }

  /** Redelivering a processed webhook event inserts a second order for the
      same session: the webhook path has no idempotency guard. */
  lemma WebhookRedeliveryDuplicates(db: Db, event: Webhook.Event, n1: nat, n2: nat)
    requires Webhook.Processes(true, event)
    ensures var db1 := Webhook.Handle(db, true, event, n1).1;
      var db2 := Webhook.Handle(db1, true, event, n2).1;
      CountSession(db2.orders, event.session.id) == CountSession(db.orders, event.session.id) + 2
  {
  }

  /** After the webhook has made the order, the redirect call for the same
      session finds it and changes nothing. */
  lemma WebhookThenRedirect(db: Db, event: Webhook.Event, n1: nat,
                            caller: Option<ClerkUser>, t: Option<int>, n2: nat)
    requires Webhook.Processes(true, event) && event.session.id != ""
    requires SignedInEmail(caller).Some?
    ensures var db1 := Webhook.Handle(db, true, event, n1).1;
      var (r2, db2) := OrderCreate.Create(db1, caller, Some(event.session.id), t, n2);
      db2 == db1 && r2.Ok? && r2.body.message == "Order already exists"
  {
    var db1 := Webhook.Handle(db, true, event, n1).1;
    var s := event.session;
    var o := Order(db.nextOrderId, s.metadata.userEmail.value, s.id, s.amountTotal, "completed", n1);
    FindOrderAppend(db.orders, o, s.id);
  }

  /** In the other order the guard does not help: a redirect call followed
      by the webhook for the same session leaves two orders for it. */
  lemma RedirectThenWebhook(db: Db, caller: Option<ClerkUser>, t: Option<int>, n1: nat,
                            event: Webhook.Event, n2: nat)
    requires Webhook.Processes(true, event)
    requires OrderCreate.Creates(db, caller, Some(event.session.id))
    requires CountSession(db.orders, event.session.id) == 0
    ensures var db1 := OrderCreate.Create(db, caller, Some(event.session.id), t, n1).1;
      CountSession(Webhook.Handle(db1, true, event, n2).1.orders, event.session.id) == 2
  {
  }

  lemma {:induction false} AmountMatchesLines(items: seq<Checkout.LineItem>, lines: seq<ItemLine>)
    requires |items| == |lines|
    requires forall k :: 0 <= k < |items| ==>
      items[k].unitAmount == lines[k].price && items[k].quantity == lines[k].quantity
    ensures Checkout.AmountTotal(items) == LinesTotal(lines)
    decreases |items|
  {
    if items != [] {
      AmountMatchesLines(items[1..], lines[1..]);
    }
  }

  /** Checkout followed by the webhook for the session it opened, with the
      products unchanged in between: the order's items are exactly the
      joined cart rows (product, quantity, price), their sum equals the
      amount charged, which is the order total, and the buyer's cart is
      emptied. */
  lemma CheckoutThenWebhook(db: Db, caller: Option<ClerkUser>, baseUrl: string,
                            created: Checkout.CreatedSession, now: nat)
    requires Checkout.CreateSession(db, caller, baseUrl, created).1.Some?
    ensures
      var p := Checkout.CreateSession(db, caller, baseUrl, created).1.value;
      var e := SignedInEmail(caller).value;
      var lines := OrderCreate.ItemLinesOf(JoinCart(db.cart, db.products, e));
      var event := Webhook.Event(Webhook.Completed,
        Webhook.Session(created.id, Checkout.AmountTotal(p.lineItems),
                        Webhook.Metadata(Some(p.metadataUserEmail), Some(p.metadataCartItems))));
      var db1 := Webhook.Handle(db, true, event, now).1;
      var added := NewItems(db.nextOrderId, lines, db.nextOrderItemId);
      && Webhook.Processes(true, event)
      && db1.orders == db.orders + [Order(db.nextOrderId, e, created.id, LinesTotal(lines), "completed", now)]
      && db1.orderItems == db.orderItems + added
      && ItemsTotal(added) == LinesTotal(lines)
      && (forall c :: c in db1.cart ==> c.userEmail != e)
  {
    var p := Checkout.CreateSession(db, caller, baseUrl, created).1.value;
    var e := SignedInEmail(caller).value;
    var joined := JoinCart(db.cart, db.products, e);
    var lines := OrderCreate.ItemLinesOf(joined);
    assert Snapshot.Parse(p.metadataCartItems) == Some(Checkout.SnapshotOf(joined));
    SnapshotRebuildsLines(joined, db.products);
    AmountMatchesLines(p.lineItems, lines);
    NewItemsTotal(db.nextOrderId, lines, db.nextOrderItemId);
  }

  /** When every joined row's product is still in the catalogue, the lines the
      webhook rebuilds from the checkout snapshot are the joined rows'
      (product, quantity, price), and no snapshot entry drops out. */
  lemma SnapshotRebuildsLines(joined: seq<CartLine>, products: seq<Product>)
    requires forall k :: 0 <= k < |joined| ==>
      FindProduct(products, joined[k].item.productId) == Some(joined[k].product)
    ensures Where(Checkout.SnapshotOf(joined), Webhook.InCatalog(products)) == Checkout.SnapshotOf(joined)
    ensures Webhook.SnapshotLines(Checkout.SnapshotOf(joined), products) == OrderCreate.ItemLinesOf(joined)
  {
    var es := Checkout.SnapshotOf(joined);
    assert forall k :: 0 <= k < |es| ==> Webhook.InCatalog(products)(es[k]);
    WhereAll(es, Webhook.InCatalog(products));
  }
}

=== FILE: schema.dfy ===
/** The database as immutable tables: one record type per table, each table a
    sequence in insertion order, and one identity counter per table.
    Prices and totals are integer cents. Timestamps are abstract naturals. */
module Schema {
  import opened Common

  datatype User = User(id: int, name: string, email: string, image: Option<string>, isAdmin: bool)

  /** `price` is the numeric column held as cents. */
  datatype Product = Product(
    id: int, title: string, price: int, description: string,
    category: string, imageUrl: string, createdBy: string)

  datatype CartItem = CartItem(id: int, userEmail: string, productId: int, quantity: int, createdAt: nat)

  /** `totalAmount` in cents; `stripeSessionId` is the payment session the
      order was paid with. */
  datatype Order = Order(
    id: int, userEmail: string, stripeSessionId: string,
    totalAmount: int, status: string, createdAt: nat)

  /** `price` is the unit price in cents copied at purchase time. */
  datatype OrderItem = OrderItem(id: int, orderId: int, productId: int, quantity: int, price: int)

  datatype Ticket = Ticket(
    id: int, userEmail: Option<string>, userName: Option<string>, subject: string,
    priority: string, status: string, createdAt: nat, updatedAt: nat)

  datatype TicketMessage = TicketMessage(
    id: int, ticketId: int, senderEmail: Option<string>, senderName: Option<string>,
    message: string, isAdmin: bool, createdAt: nat)

  datatype Category = Category(
    id: int, name: Option<string>, description: Option<string>, icon: Option<string>, isActive: bool)

  datatype Setting = Setting(id: int, key: string, value: string, updatedAt: nat)

  /** Every table the modelled routes touch, with its next identity value. */
  datatype Db = Db(
    users: seq<User>, nextUserId: int,
    products: seq<Product>,
    cart: seq<CartItem>, nextCartId: int,
    orders: seq<Order>, nextOrderId: int,
    orderItems: seq<OrderItem>, nextOrderItemId: int,
    tickets: seq<Ticket>, nextTicketId: int,
    messages: seq<TicketMessage>, nextMessageId: int,
    categories: seq<Category>, nextCategoryId: int,
    settings: seq<Setting>, nextSettingId: int)

  /** The first row `hit` accepts, in table order: a select with
      `LIMIT 1` (or whose first row the handler reads), or `Array.find`. */
  function First<T(!new)>(rows: seq<T>, hit: T -> bool): (r: Option<T>)
    ensures r.Some? ==> r.value in rows && hit(r.value)
    ensures r.None? <==> forall k :: 0 <= k < |rows| ==> !hit(rows[k])
  {
    if rows == [] then None
    else if hit(rows[0]) then Some(rows[0])
    else
      var r := First(rows[1..], hit);
      assert forall k :: 0 <= k < |rows[1..]| ==> rows[1..][k] == rows[k + 1];
      r
  }

  /** The row `First` finds sits before every other accepted row. */
  lemma {:induction false} FirstIsEarliest<T(!new)>(rows: seq<T>, hit: T -> bool)
    ensures First(rows, hit).Some? ==>
      exists k :: 0 <= k < |rows| && rows[k] == First(rows, hit).value && forall j :: 0 <= j < k ==> !hit(rows[j])
    decreases |rows|
  {
    if rows != [] && !hit(rows[0]) {
      FirstIsEarliest(rows[1..], hit);
      if First(rows[1..], hit).Some? {
        var k :| 0 <= k < |rows[1..]| && rows[1..][k] == First(rows[1..], hit).value
          && forall j :: 0 <= j < k ==> !hit(rows[1..][j]);
        assert rows[k + 1] == First(rows, hit).value;
        assert forall j :: 0 <= j < k + 1 ==> !hit(rows[j]) by {
          forall j | 0 <= j < k + 1 ensures !hit(rows[j]) {
            if j > 0 { assert rows[j] == rows[1..][j - 1]; }
          }
        }
      }
    }
  }

  function ProductIdIs(id: int): Product -> bool {
    (p: Product) => p.id == id
  }

  function EmailIs(email: string): User -> bool {
    (u: User) => u.email == email
  }

  /** The product row with the given id (`id` is the primary key). */
  function FindProduct(products: seq<Product>, id: int): (r: Option<Product>)
    ensures r.Some? ==> r.value in products && r.value.id == id
    ensures r.None? <==> forall k :: 0 <= k < |products| ==> products[k].id != id
  {
    First(products, ProductIdIs(id))
  }

  /** The first user row with the given e-mail address. */
  function FindUserByEmail(users: seq<User>, email: string): (r: Option<User>)
    ensures r.Some? ==> r.value in users && r.value.email == email
    ensures r.None? <==> forall k :: 0 <= k < |users| ==> users[k].email != email
  {
    First(users, EmailIs(email))
  }

  /** One row of `cartItems INNER JOIN products ON productId = products.id`. */
  datatype CartLine = CartLine(item: CartItem, product: Product)

  /** The cart rows of a join result, in its order. */
  function RowsOf(lines: seq<CartLine>): (rows: seq<CartItem>)
    ensures |rows| == |lines|
    ensures forall k :: 0 <= k < |lines| ==> rows[k] == lines[k].item
  {
    seq(|lines|, k requires 0 <= k < |lines| => lines[k].item)
  }

  /** `WHERE userEmail = email` on a row whose product exists. */
  function Joinable(products: seq<Product>, email: string): CartItem -> bool {
    (c: CartItem) => c.userEmail == email && FindProduct(products, c.productId).Some?
  }

  /** The caller's cart joined with the products it refers to, in table order:
      rows whose product no longer exists drop out of the inner join. */
  function JoinCart(cart: seq<CartItem>, products: seq<Product>, email: string): (lines: seq<CartLine>)
    ensures RowsOf(lines) == Where(cart, Joinable(products, email))
    ensures |lines| <= |cart|
    ensures forall k :: 0 <= k < |lines| ==>
      lines[k].item in cart && lines[k].item.userEmail == email
      && FindProduct(products, lines[k].item.productId) == Some(lines[k].product)
    ensures forall c :: c in cart && c.userEmail == email && FindProduct(products, c.productId).Some? ==>
      exists k :: 0 <= k < |lines| && lines[k].item == c
  {
    var lines := JoinRows(cart, products, email);
    JoinedMembers(cart, products, email, lines);
    lines
  }

  /** The join, row by row; each line carries the product its row names. */
  function JoinRows(cart: seq<CartItem>, products: seq<Product>, email: string): (lines: seq<CartLine>)
    ensures RowsOf(lines) == Where(cart, Joinable(products, email))
    ensures forall k :: 0 <= k < |lines| ==> FindProduct(products, lines[k].item.productId) == Some(lines[k].product)
  {
    if cart == [] then []
    else
      var rest := JoinRows(cart[1..], products, email);
      var p := FindProduct(products, cart[0].productId);
      if Joinable(products, email)(cart[0]) then
        var lines := [CartLine(cart[0], p.value)] + rest;
        assert Where(cart, Joinable(products, email)) == [cart[0]] + Where(cart[1..], Joinable(products, email));
        assert RowsOf(lines) == [cart[0]] + RowsOf(rest);
        assert forall k :: 0 < k < |lines| ==> lines[k] == rest[k - 1];
        lines
      else
        assert Where(cart, Joinable(products, email)) == Where(cart[1..], Joinable(products, email));
        rest
  }

  /** A join result whose rows are the filtered cart holds exactly the
      caller's rows whose product exists. */
  lemma JoinedMembers(cart: seq<CartItem>, products: seq<Product>, email: string, lines: seq<CartLine>)
    requires RowsOf(lines) == Where(cart, Joinable(products, email))
    ensures |lines| <= |cart|
    ensures forall k :: 0 <= k < |lines| ==> lines[k].item in cart && lines[k].item.userEmail == email
    ensures forall c :: c in cart && c.userEmail == email && FindProduct(products, c.productId).Some? ==>
      exists k :: 0 <= k < |lines| && lines[k].item == c
  {
    var rows := RowsOf(lines);
    assert forall k :: 0 <= k < |lines| ==> rows[k] in rows;
    forall c | c in cart && c.userEmail == email && FindProduct(products, c.productId).Some?
      ensures exists k :: 0 <= k < |lines| && lines[k].item == c
    {
      assert Joinable(products, email)(c);
      assert c in rows;
      var k :| 0 <= k < |rows| && rows[k] == c;
      assert lines[k].item == c;
    }
  }

  /** What one order item is built from: product, quantity and unit price. */
  datatype ItemLine = ItemLine(productId: int, quantity: int, price: int)

  /** Sum of unit price times quantity. */
  function LinesTotal(lines: seq<ItemLine>): int {
    if lines == [] then 0 else lines[0].price * lines[0].quantity + LinesTotal(lines[1..])
  }

  /** Sum of unit price times quantity over order items. */
  function ItemsTotal(items: seq<OrderItem>): int {
    if items == [] then 0 else items[0].price * items[0].quantity + ItemsTotal(items[1..])
  }

  /** The order item rows for `lines`, with consecutive ids from `start`. */
  function NewItems(orderId: int, lines: seq<ItemLine>, start: int): (items: seq<OrderItem>)
    ensures |items| == |lines|
    ensures forall k :: 0 <= k < |items| ==>
      items[k] == OrderItem(start + k, orderId, lines[k].productId, lines[k].quantity, lines[k].price)
  {
    seq(|lines|, k requires 0 <= k < |lines| =>
      OrderItem(start + k, orderId, lines[k].productId, lines[k].quantity, lines[k].price))
  }

  /** The inserted items of an order add up to the total of the lines they
      were made from. */
  lemma {:induction false} NewItemsTotal(orderId: int, lines: seq<ItemLine>, start: int)
    ensures ItemsTotal(NewItems(orderId, lines, start)) == LinesTotal(lines)
    decreases |lines|
  {
    if lines != [] {
      var items := NewItems(orderId, lines, start);
      assert items[1..] == NewItems(orderId, lines[1..], start + 1);
      NewItemsTotal(orderId, lines[1..], start + 1);
    }
  }

  /** Number of orders paid with the given payment session. */
  function CountSession(orders: seq<Order>, sessionId: string): nat {
    if orders == [] then 0
    else (if orders[0].stripeSessionId == sessionId then 1 else 0) + CountSession(orders[1..], sessionId)
  }

  /** Appending one order adds one to its session's count and nothing to any
      other session's. */
  lemma {:induction false} CountSessionAppend(orders: seq<Order>, o: Order, sessionId: string)
    ensures CountSession(orders + [o], sessionId)
      == CountSession(orders, sessionId) + (if o.stripeSessionId == sessionId then 1 else 0)
    decreases |orders|
  {
    if orders != [] {
      assert (orders + [o])[1..] == orders[1..] + [o];
      CountSessionAppend(orders[1..], o, sessionId);
    }
  }

  /** The first order paid with the given session, as the order-creation
      route's lookup returns it. */
  function FindOrder(orders: seq<Order>, sessionId: string): (r: Option<Order>)
    ensures r.Some? ==> r.value in orders && r.value.stripeSessionId == sessionId
    ensures r.None? <==> CountSession(orders, sessionId) == 0
  {
    if orders == [] then None
    else if orders[0].stripeSessionId == sessionId then Some(orders[0])
    else FindOrder(orders[1..], sessionId)
  }

  /** The lookup by session after one more order: an earlier order wins. */
  lemma {:induction false} FindOrderAppend(orders: seq<Order>, o: Order, sessionId: string)
    ensures FindOrder(orders + [o], sessionId)
      == if FindOrder(orders, sessionId).Some? then FindOrder(orders, sessionId)
         else if o.stripeSessionId == sessionId then Some(o) else None
    decreases |orders|
  {
    if orders != [] {
      assert (orders + [o])[0] == orders[0];
      assert (orders + [o])[1..] == orders[1..] + [o];
      FindOrderAppend(orders[1..], o, sessionId);
    } else {
      assert orders + [o] == [o];
    }
  }

  /** `rows` restricted to those `keep` accepts, in table order: the
      `WHERE` of a select, or the rows a `DELETE ... WHERE not keep` leaves. */
  function Where<T(!new)>(rows: seq<T>, keep: T -> bool): (r: seq<T>)
    ensures |r| <= |rows|
    ensures forall x :: x in r <==> x in rows && keep(x)
  {
    if rows == [] then []
    else if keep(rows[0]) then [rows[0]] + Where(rows[1..], keep)
    else Where(rows[1..], keep)
  }

  /** Filtering keeps relative order: it distributes over concatenation. */
  lemma {:induction false} WhereAppend<T(!new)>(a: seq<T>, b: seq<T>, keep: T -> bool)
    ensures Where(a + b, keep) == Where(a, keep) + Where(b, keep)
    decreases |a|
  {
    if a != [] {
      var ab := a + b;
      assert ab[0] == a[0];
      assert ab[1..] == a[1..] + b;
      assert Where(ab, keep)
        == if keep(a[0]) then [a[0]] + Where(a[1..] + b, keep) else Where(a[1..] + b, keep);
      WhereAppend(a[1..], b, keep);
      if keep(a[0]) {
        assert [a[0]] + (Where(a[1..], keep) + Where(b, keep))
          == ([a[0]] + Where(a[1..], keep)) + Where(b, keep);
      }
    } else {
      assert a + b == b;
    }
  }

  /** Filtering keeps everything when every row passes. */
  lemma {:induction false} WhereAll<T(!new)>(rows: seq<T>, keep: T -> bool)
    requires forall k :: 0 <= k < |rows| ==> keep(rows[k])
    ensures Where(rows, keep) == rows
    decreases |rows|
  {
    if rows != [] {
      WhereAll(rows[1..], keep);
      assert [rows[0]] + rows[1..] == rows;
    }
  }

  /** Filtering keeps nothing when no row passes. */
  lemma {:induction false} WhereNone<T(!new)>(rows: seq<T>, keep: T -> bool)
    requires forall k :: 0 <= k < |rows| ==> !keep(rows[k])
    ensures Where(rows, keep) == []
    decreases |rows|
  {
    if rows != [] {
      WhereNone(rows[1..], keep);
    }
  }

  /** Filtering twice with the same test changes nothing the second time. */
  lemma {:induction false} WhereTwice<T(!new)>(rows: seq<T>, keep: T -> bool)
    ensures Where(Where(rows, keep), keep) == Where(rows, keep)
    decreases |rows|
  {
    if rows != [] {
      WhereTwice(rows[1..], keep);
    }
  }

  /** Identity values in a table are distinct. */
  predicate UniqueCartIds(cart: seq<CartItem>) {
    forall i, j :: 0 <= i < j < |cart| ==> cart[i].id != cart[j].id
  }
}

=== FILE: settings.dfy ===
/** Site settings (src/app/api/admin/settings/route.jsx): an admin posts an
    object of key/value pairs and each pair is written in turn, updating
    the rows with that key or inserting one. */
module Settings {
  import opened Common
  import opened Schema
  import AdminAuth

  /** One `[key, value]` of `Object.entries(settings)`, in object order. */
  type Entry = (string, string)

  /** The value of the first row with the key. */
  function ValueOf(settings: seq<Setting>, key: string): (r: Option<string>)
    ensures r.None? <==> forall k :: 0 <= k < |settings| ==> settings[k].key != key
    ensures r.Some? ==> exists k :: 0 <= k < |settings| && settings[k].key == key && settings[k].value == r.value
  {
    if settings == [] then None
    else if settings[0].key == key then Some(settings[0].value)
    else
      var r := ValueOf(settings[1..], key);
      assert forall k :: 0 <= k < |settings[1..]| ==> settings[1..][k] == settings[k + 1];
      r
  }

  /** The value of the last entry with the key: the one a pass over the
      entries leaves behind. */
  function LastValue(es: seq<Entry>, key: string): (r: Option<string>)
    ensures r.Some? <==> exists k :: 0 <= k < |es| && es[k].0 == key
  {
    if es == [] then None
    else
      var rest := LastValue(es[1..], key);
      assert forall k :: 0 <= k < |es[1..]| ==> es[1..][k] == es[k + 1];
      if rest.Some? then rest
      else if es[0].0 == key then Some(es[0].1)
      else None
  }

  /** One pair: `UPDATE ... WHERE key` when a row has the key, else an insert. */
  function UpsertOne(settings: seq<Setting>, nextId: int, key: string, value: string, now: nat)
    : (r: (seq<Setting>, int))
    ensures ValueOf(settings, key).Some? ==>
      && r.1 == nextId && |r.0| == |settings|
      && (forall k :: 0 <= k < |settings| ==>
            r.0[k] == if settings[k].key == key then settings[k].(value := value, updatedAt := now) else settings[k])
    ensures ValueOf(settings, key).None? ==>
      r == (settings + [Setting(nextId, key, value, now)], nextId + 1)
  {
    if ValueOf(settings, key).Some? then
      (seq(|settings|, k requires 0 <= k < |settings| =>
         if settings[k].key == key then settings[k].(value := value, updatedAt := now) else settings[k]),
       nextId)
    else (settings + [Setting(nextId, key, value, now)], nextId + 1)
  }

  /** After a pair is written, some row has its key. */
  lemma UpsertOneHasKey(settings: seq<Setting>, nextId: int, key: string, value: string, now: nat)
    ensures ValueOf(UpsertOne(settings, nextId, key, value, now).0, key).Some?
  {
    var one := UpsertOne(settings, nextId, key, value, now);
    if ValueOf(settings, key).Some? {
      var j :| 0 <= j < |settings| && settings[j].key == key;
      assert one.0[j].key == key;
    } else {
      assert one.0[|settings|].key == key;
    }
  }

  /** All pairs in order. Rows keep their place, id and key, and rows are
      only added for posted keys, one fresh id each. */
  function UpsertAll(settings: seq<Setting>, nextId: int, es: seq<Entry>, now: nat)
    : (r: (seq<Setting>, int))
    ensures |r.0| >= |settings| && r.1 == nextId + (|r.0| - |settings|)
    ensures forall k :: 0 <= k < |settings| ==> r.0[k].id == settings[k].id && r.0[k].key == settings[k].key
    ensures forall k :: |settings| <= k < |r.0| ==> r.0[k].id == nextId + (k - |settings|)
    ensures forall k :: |settings| <= k < |r.0| ==> LastValue(es, r.0[k].key).Some?
    decreases |es|
  {
    if es == [] then (settings, nextId)
    else
      var one := UpsertOne(settings, nextId, es[0].0, es[0].1, now);
      UpsertAll(one.0, one.1, es[1..], now)
  }

  /** Rows whose key nobody posted do not change. */
  lemma {:induction false} UpsertAllUntouched(settings: seq<Setting>, nextId: int, es: seq<Entry>, now: nat)
    ensures var r := UpsertAll(settings, nextId, es, now);
      forall k :: 0 <= k < |settings| && LastValue(es, settings[k].key).None? ==> r.0[k] == settings[k]
    decreases |es|
  {
    if es != [] {
      var one := UpsertOne(settings, nextId, es[0].0, es[0].1, now);
      UpsertAllUntouched(one.0, one.1, es[1..], now);
    }
  }

  /** Every row with a posted key carries the last value posted for it. */
  lemma {:induction false} UpsertAllLastValue(settings: seq<Setting>, nextId: int, es: seq<Entry>, now: nat)
    ensures var r := UpsertAll(settings, nextId, es, now);
      forall k :: 0 <= k < |r.0| && LastValue(es, r.0[k].key).Some? ==>
        r.0[k].value == LastValue(es, r.0[k].key).value
    decreases |es|
  {
    if es != [] {
      var one := UpsertOne(settings, nextId, es[0].0, es[0].1, now);
      UpsertAllLastValue(one.0, one.1, es[1..], now);
      UpsertAllUntouched(one.0, one.1, es[1..], now);
      var r := UpsertAll(settings, nextId, es, now);
      forall k | 0 <= k < |r.0| && LastValue(es, r.0[k].key).Some?
        ensures r.0[k].value == LastValue(es, r.0[k].key).value
      {
        var key := r.0[k].key;
        if LastValue(es[1..], key).None? {
          assert k < |one.0|;
          assert one.0[k].key == key;
          assert r.0[k] == one.0[k];
          assert key == es[0].0;
          if ValueOf(settings, key).None? {
            assert k == |settings|;
          }
          assert LastValue(es, key) == Some(es[0].1);
        } else {
          assert LastValue(es, key) == LastValue(es[1..], key);
        }
      }
    }
  }

  /** Every posted key has a row afterwards, and its first row carries the
      last value posted for it. */
  lemma UpsertAllPosted(settings: seq<Setting>, nextId: int, es: seq<Entry>, now: nat, key: string)
    requires LastValue(es, key).Some?
    ensures ValueOf(UpsertAll(settings, nextId, es, now).0, key) == LastValue(es, key)
  {
    UpsertAllHasKey(settings, nextId, es, now, key);
    UpsertAllLastValue(settings, nextId, es, now);
  }

  lemma {:induction false} UpsertAllHasKey(settings: seq<Setting>, nextId: int, es: seq<Entry>, now: nat, key: string)
    requires LastValue(es, key).Some?
    ensures ValueOf(UpsertAll(settings, nextId, es, now).0, key).Some?
    decreases |es|
  {
    var one := UpsertOne(settings, nextId, es[0].0, es[0].1, now);
    if LastValue(es[1..], key).Some? {
      UpsertAllHasKey(one.0, one.1, es[1..], now, key);
    } else {
      UpsertOneHasKey(settings, nextId, key, es[0].1, now);
      var j :| 0 <= j < |one.0| && one.0[j].key == key;
      assert UpsertAll(settings, nextId, es, now).0[j].key == key;
    }
  }

  /** POST /api/admin/settings: 403 for anyone but an admin, else every pair
      is written in turn. */
  function Post(db: Db, caller: Option<ClerkUser>, es: seq<Entry>, now: nat): (r: (Response<Done>, Db))
    ensures !AdminAuth.IsAdmin(db, caller) ==> r == (Fail(403, "Unauthorized"), db)
    ensures AdminAuth.IsAdmin(db, caller) ==>
      && r.0 == Ok(Success)
      && (forall key :: LastValue(es, key).Some? ==> ValueOf(r.1.settings, key) == LastValue(es, key))
      && (forall key :: LastValue(es, key).None? ==> ValueOf(r.1.settings, key) == ValueOf(db.settings, key))
      && r.1 == db.(settings := r.1.settings, nextSettingId := r.1.nextSettingId)
  {
    if !AdminAuth.IsAdmin(db, caller) then (Fail(403, "Unauthorized"), db)
    else
      var r := UpsertAll(db.settings, db.nextSettingId, es, now);
      UpsertAllUntouched(db.settings, db.nextSettingId, es, now);
      UntouchedKeys(db.settings, r.0, es);
      PostedKeys(db.settings, db.nextSettingId, es, now);
      (Ok(Success), db.(settings := r.0, nextSettingId := r.1))
  }

  lemma PostedKeys(settings: seq<Setting>, nextId: int, es: seq<Entry>, now: nat)
    ensures forall key :: LastValue(es, key).Some? ==>
      ValueOf(UpsertAll(settings, nextId, es, now).0, key) == LastValue(es, key)
  {
    forall key | LastValue(es, key).Some?
      ensures ValueOf(UpsertAll(settings, nextId, es, now).0, key) == LastValue(es, key)
    {
      UpsertAllPosted(settings, nextId, es, now, key);
    }
  }

  /** Rows added after the old ones all carry posted keys, so for a key
      nobody posted the first row is the old first row. */
  lemma UntouchedKeys(old_: seq<Setting>, new_: seq<Setting>, es: seq<Entry>)
    requires |new_| >= |old_|
    requires forall k :: 0 <= k < |old_| ==> new_[k].key == old_[k].key
    requires forall k :: 0 <= k < |old_| && LastValue(es, old_[k].key).None? ==> new_[k] == old_[k]
    requires forall k :: |old_| <= k < |new_| ==> LastValue(es, new_[k].key).Some?
    ensures forall key :: LastValue(es, key).None? ==> ValueOf(new_, key) == ValueOf(old_, key)
  {
    forall key | LastValue(es, key).None?
      ensures ValueOf(new_, key) == ValueOf(old_, key)
    {
      FirstKeyPrefix(old_, new_, key);
    }
  }

  lemma {:induction false} FirstKeyPrefix(old_: seq<Setting>, new_: seq<Setting>, key: string)
    requires |new_| >= |old_|
    requires forall k :: 0 <= k < |old_| ==> new_[k].key == old_[k].key
    requires forall k :: 0 <= k < |old_| && old_[k].key == key ==> new_[k] == old_[k]
    requires forall k :: |old_| <= k < |new_| ==> new_[k].key != key
    ensures ValueOf(new_, key) == ValueOf(old_, key)
    decreases |old_|
  {
    if old_ == [] {
      assert ValueOf(new_, key).None?;
    } else if old_[0].key != key {
      FirstKeyPrefix(old_[1..], new_[1..], key);
    }
  }

  /** The settings content without the update times. */
  predicate SameContent(a: seq<Setting>, b: seq<Setting>) {
    && |a| == |b|
    && forall k :: 0 <= k < |a| ==> a[k].id == b[k].id && a[k].key == b[k].key && a[k].value == b[k].value
  }

  /** A pass over pairs whose keys all have rows adds no row and leaves each
      posted key's rows with its last value. */
  lemma {:induction false} UpsertAllPresent(settings: seq<Setting>, nextId: int, es: seq<Entry>, now: nat)
    requires forall k :: 0 <= k < |es| ==> ValueOf(settings, es[k].0).Some?
    ensures var r := UpsertAll(settings, nextId, es, now);
      && r.1 == nextId && |r.0| == |settings|
      && forall k :: 0 <= k < |settings| ==>
           r.0[k].value == (if LastValue(es, settings[k].key).Some? then LastValue(es, settings[k].key).value
                            else settings[k].value)
    decreases |es|
  {
    if es != [] {
      var one := UpsertOne(settings, nextId, es[0].0, es[0].1, now);
      forall k | 0 <= k < |es[1..]|
        ensures ValueOf(one.0, es[1..][k].0).Some?
      {
        var j :| 0 <= j < |settings| && settings[j].key == es[k + 1].0;
        assert one.0[j].key == es[k + 1].0;
      }
      UpsertAllPresent(one.0, one.1, es[1..], now);
    }
  }

  /** Writing the same pairs a second time changes no id, key or value and
      adds no row. */
  lemma UpsertAllTwice(settings: seq<Setting>, nextId: int, es: seq<Entry>, t1: nat, t2: nat)
    ensures var r1 := UpsertAll(settings, nextId, es, t1);
      var r2 := UpsertAll(r1.0, r1.1, es, t2);
      SameContent(r2.0, r1.0) && r2.1 == r1.1
  {
    var r1 := UpsertAll(settings, nextId, es, t1);
    forall k | 0 <= k < |es|
      ensures ValueOf(r1.0, es[k].0).Some?
    {
      UpsertAllHasKey(settings, nextId, es, t1, es[k].0);
    }
    UpsertAllPresent(r1.0, r1.1, es, t2);
    UpsertAllLastValue(settings, nextId, es, t1);
  }

  /** Posting the same object twice leaves the same ids, keys and values as
      posting it once. */
  lemma PostTwice(db: Db, caller: Option<ClerkUser>, es: seq<Entry>, n1: nat, n2: nat)
    requires AdminAuth.IsAdmin(db, caller)
    ensures var db1 := Post(db, caller, es, n1).1;
      var db2 := Post(db1, caller, es, n2).1;
      SameContent(db2.settings, db1.settings) && db2.nextSettingId == db1.nextSettingId
  {
    var db1 := Post(db, caller, es, n1).1;
    assert db1.users == db.users;
    assert AdminAuth.IsAdmin(db1, caller);
    assert (db1.settings, db1.nextSettingId) == UpsertAll(db.settings, db.nextSettingId, es, n1);
    UpsertAllTwice(db.settings, db.nextSettingId, es, n1, n2);
  }

  /** At most one row per key (the key column is unique). */
  predicate UniqueKeys(settings: seq<Setting>) {
    forall i, j :: 0 <= i < j < |settings| ==> settings[i].key != settings[j].key
  }

  /** Writes keep keys unique. */
  lemma {:induction false} UpsertKeepsUniqueKeys(settings: seq<Setting>, nextId: int, es: seq<Entry>, now: nat)
    requires UniqueKeys(settings)
    ensures UniqueKeys(UpsertAll(settings, nextId, es, now).0)
    decreases |es|
  {
    if es != [] {
      var one := UpsertOne(settings, nextId, es[0].0, es[0].1, now);
      assert UniqueKeys(one.0);
      UpsertKeepsUniqueKeys(one.0, one.1, es[1..], now);
    }
  }
}

=== FILE: snapshot.dfy ===
/** The cart snapshot that checkout stores in the payment session's metadata
    and the webhook reads back: the text `JSON.stringify` produces for an
    array of `{id, productId, quantity}` objects with integer fields, and a
    parser for that text. */
module Snapshot {
  import opened Common

  /** One snapshot entry: cart row id, product id and quantity. */
  datatype Entry = Entry(id: int, productId: int, quantity: int)

  predicate IsDigit(c: char) {
    '0' <= c <= '9'
  }

  predicate AllDigits(s: string) {
    forall i :: 0 <= i < |s| ==> IsDigit(s[i])
  }

  function DigitChar(d: nat): (c: char)
    requires d < 10
    ensures IsDigit(c)
  {
    ('0' as int + d) as char
  }

  function DigitValue(c: char): nat
    requires IsDigit(c)
  {
    c as int - '0' as int
  }

  /** A digit run JSON allows as the magnitude of a number: a lone digit,
      or a run that does not start with `0`. */
  predicate Canonical(ds: string) {
    |ds| > 0 && AllDigits(ds) && (|ds| == 1 || ds[0] != '0')
  }

  /** Decimal digits of `n`, most significant first, without leading zeros. */
  function NatText(n: nat): (s: string)
    ensures Canonical(s)
    ensures n > 0 ==> s[0] != '0'
    decreases n
  {
    if n < 10 then [DigitChar(n)] else NatText(n / 10) + [DigitChar(n % 10)]
  }

  /** The number a run of decimal digits denotes. */
  function DigitsValue(s: string): nat
    requires AllDigits(s)
  {
    if s == [] then 0 else DigitsValue(s[..|s| - 1]) * 10 + DigitValue(s[|s| - 1])
  }

  lemma {:induction false} DigitsValueOfNatText(n: nat)
    ensures DigitsValue(NatText(n)) == n
    decreases n
  {
    if n >= 10 {
      var s := NatText(n);
      assert s[..|s| - 1] == NatText(n / 10);
      DigitsValueOfNatText(n / 10);
    }
  }

  /** A canonical run with a non-zero first digit denotes a positive number. */
  lemma {:induction false} LeadingDigitPositive(ds: string)
    requires Canonical(ds) && ds[0] != '0'
    ensures DigitsValue(ds) > 0
    decreases |ds|
  {
    if |ds| > 1 {
      var init := ds[..|ds| - 1];
      assert init[0] == ds[0];
      LeadingDigitPositive(init);
    }
  }

  /** Writing out the number a canonical run denotes gives the run back. */
  lemma {:induction false} NatTextOfDigits(ds: string)
    requires Canonical(ds)
    ensures NatText(DigitsValue(ds)) == ds
    decreases |ds|
  {
    if |ds| > 1 {
      var init := ds[..|ds| - 1];
      assert init[0] == ds[0];
      LeadingDigitPositive(init);
      NatTextOfDigits(init);
      assert ds == init + [ds[|ds| - 1]];
    }
  }

  /** A JSON number for an integer: optional minus sign, then digits. */
  function IntText(i: int): string {
    if i < 0 then "-" + NatText(-i) else NatText(i)
  }

  /** Length of the run of digits at the front of `s`. */
  function DigitRun(s: string): (k: nat)
    ensures k <= |s|
    ensures AllDigits(s[..k])
    ensures k < |s| ==> !IsDigit(s[k])
  {
    if s != [] && IsDigit(s[0]) then
      var k := 1 + DigitRun(s[1..]);
      assert s[..k] == [s[0]] + s[1..][..k - 1];
      k
    else 0
  }

  /** `rest` cannot extend a number written before it. */
  predicate NumberEnd(rest: string) {
    rest == [] || !IsDigit(rest[0])
  }

  lemma {:induction false} DigitRunOfDigits(ds: string, rest: string)
    requires AllDigits(ds)
    requires NumberEnd(rest)
    ensures DigitRun(ds + rest) == |ds|
    decreases |ds|
  {
    if ds != [] {
      assert (ds + rest)[1..] == ds[1..] + rest;
      DigitRunOfDigits(ds[1..], rest);
    }
  }

  /** Reads an integer at the front of `s`; returns it with the text after
      it. Digit runs with a leading zero are refused, as `JSON.parse` refuses
      them, and so is `-0`, which `JSON.stringify` never writes. */
  function ParseInt(s: string): (r: Option<(int, string)>)
    ensures r.Some? ==> |r.value.1| < |s|
  {
    if s != [] && s[0] == '-' then
      var k := DigitRun(s[1..]);
      if k == 0 || s[1] == '0' then None
      else
        var n: int := DigitsValue(s[1..][..k]);
        Some((-n, s[1..][k..]))
    else
      var k := DigitRun(s);
      if k == 0 || !Canonical(s[..k]) then None else Some((DigitsValue(s[..k]), s[k..]))
  }

  /** What `ParseInt` accepts is exactly a written integer followed by text
      that cannot continue it. */
  lemma ParseIntIsText(s: string)
    requires ParseInt(s).Some?
    ensures s == IntText(ParseInt(s).value.0) + ParseInt(s).value.1
    ensures NumberEnd(ParseInt(s).value.1)
  {
    if s[0] == '-' {
      NegativeIsText(s);
    } else {
      var k := DigitRun(s);
      NatTextOfDigits(s[..k]);
      assert s == s[..k] + s[k..];
    }
  }

  /** The signed case of `ParseIntIsText`. */
  lemma NegativeIsText(s: string)
    requires ParseInt(s).Some? && s[0] == '-'
    ensures s == IntText(ParseInt(s).value.0) + ParseInt(s).value.1
    ensures NumberEnd(ParseInt(s).value.1)
  {
    var t := s[1..];
    var k := DigitRun(t);
    var ds := t[..k];
    assert ds[0] == s[1];
    LeadingDigitPositive(ds);
    NatTextOfDigits(ds);
    var n: int := DigitsValue(ds);
    assert ParseInt(s).value == (-n, t[k..]);
    assert IntText(-n) == "-" + ds;
    assert s == "-" + ds + t[k..];
  }

  lemma ParseNatText(n: nat, rest: string)
    requires NumberEnd(rest)
    ensures ParseInt(NatText(n) + rest) == Some((n as int, rest))
  {
    var t := NatText(n);
    DigitRunOfDigits(t, rest);
    assert (t + rest)[..|t|] == t;
    assert (t + rest)[|t|..] == rest;
    DigitsValueOfNatText(n);
  }

  /** Reading back a written integer gives the integer and leaves the rest. */
  lemma ParseIntText(i: int, rest: string)
    requires NumberEnd(rest)
    ensures ParseInt(IntText(i) + rest) == Some((i, rest))
  {
    if i < 0 {
      var t := NatText(-i);
      assert ("-" + t + rest)[1..] == t + rest;
      ParseNatText(-i, rest);
    } else {
      ParseNatText(i, rest);
    }
  }

  /** Consumes the literal `lit` at the front of `s`. */
  function Expect(lit: string, s: string): (r: Option<string>)
    ensures r.Some? ==> |r.value| == |s| - |lit|
    ensures r.Some? <==> lit <= s
    ensures r.Some? ==> s == lit + r.value
  {
    if lit <= s then Some(s[|lit|..]) else None
  }

  lemma ExpectText(lit: string, rest: string)
    ensures Expect(lit, lit + rest) == Some(rest)
  {
    assert lit <= lit + rest;
    assert (lit + rest)[|lit|..] == rest;
  }

  const IdKey: string := "{\"id\":"
  const ProductIdKey: string := ",\"productId\":"
  const QuantityKey: string := ",\"quantity\":"
  const Close: string := "}"

  /** `JSON.stringify({id, productId, quantity})`. */
  function EntryText(e: Entry): string {
    IdKey + IntText(e.id) + ProductIdKey + IntText(e.productId) + QuantityKey + IntText(e.quantity) + Close
  }

  /** Reads one entry at the front of `s`; returns it with the text after it. */
  function ParseEntry(s: string): (r: Option<(Entry, string)>)
    ensures r.Some? ==> |r.value.1| < |s|
  {
    var s1 :- Expect(IdKey, s);
    var a :- ParseInt(s1);
    var s2 :- Expect(ProductIdKey, a.1);
    var b :- ParseInt(s2);
    var s3 :- Expect(QuantityKey, b.1);
    var c :- ParseInt(s3);
    var s4 :- Expect(Close, c.1);
    Some((Entry(a.0, b.0, c.0), s4))
  }

  lemma ParseEntryText(e: Entry, rest: string)
    ensures ParseEntry(EntryText(e) + rest) == Some((e, rest))
  {
    var r4 := Close + rest;
    var r3 := IntText(e.quantity) + r4;
    var r2 := QuantityKey + r3;
    var r1 := IntText(e.productId) + r2;
    var r0 := ProductIdKey + r1;
    var s1 := IntText(e.id) + r0;
    EntryTextNested(e, rest);
    ExpectText(IdKey, s1);
    ParseIntText(e.id, r0);
    ExpectText(ProductIdKey, r1);
    ParseIntText(e.productId, r2);
    ExpectText(QuantityKey, r3);
    ParseIntText(e.quantity, r4);
    ExpectText(Close, rest);
  }

  /** What `ParseEntry` accepts is exactly a written entry and the text after it. */
  lemma ParseEntryIsText(s: string)
    requires ParseEntry(s).Some?
    ensures s == EntryText(ParseEntry(s).value.0) + ParseEntry(s).value.1
  {
    var s1 := Expect(IdKey, s).value;
    var a := ParseInt(s1).value;
    ParseIntIsText(s1);
    var s2 := Expect(ProductIdKey, a.1).value;
    var b := ParseInt(s2).value;
    ParseIntIsText(s2);
    var s3 := Expect(QuantityKey, b.1).value;
    var c := ParseInt(s3).value;
    ParseIntIsText(s3);
    var s4 := Expect(Close, c.1).value;
    EntryTextNested(Entry(a.0, b.0, c.0), s4);
  }

  /** An entry's text followed by `rest`, grouped the way the parser reads it. */
  lemma EntryTextNested(e: Entry, rest: string)
    ensures EntryText(e) + rest
      == IdKey + (IntText(e.id) + (ProductIdKey + (IntText(e.productId) + (QuantityKey + (IntText(e.quantity) + (Close + rest))))))
  {
  }

  /** The entries after the first, each preceded by a comma, then the closing bracket. */
  function TailText(es: seq<Entry>): string {
    if es == [] then "]" else "," + (EntryText(es[0]) + TailText(es[1..]))
  }

  /** `JSON.stringify(entries)`. */
  function Serialize(es: seq<Entry>): (s: string)
    ensures |s| > 1 && s[0] == '['
    ensures es == [] <==> s == "[]"
  {
    if es == [] then "[]"
    else
      var t := "[" + (EntryText(es[0]) + TailText(es[1..]));
      assert t[1] == '{';
      t
  }

  /** Reads `, entry` pairs up to the closing bracket. */
  function ParseTail(s: string): (r: Option<(seq<Entry>, string)>)
    ensures r.Some? ==> |r.value.1| < |s|
    decreases |s|
  {
    if s != [] && s[0] == ']' then Some(([], s[1..]))
    else if s != [] && s[0] == ',' then
      var p :- ParseEntry(s[1..]);
      var q :- ParseTail(p.1);
      Some(([p.0] + q.0, q.1))
    else None
  }

  /** Reads the array body after `[`: nothing but `]`, or entries separated
      by commas up to `]`. */
  function ParseBody(s: string): Option<(seq<Entry>, string)> {
    if s != [] && s[0] == ']' then Some(([], s[1..]))
    else
      var p :- ParseEntry(s);
      var q :- ParseTail(p.1);
      Some(([p.0] + q.0, q.1))
  }

  /** What `ParseTail` accepts is exactly written tail text and what follows. */
  lemma {:induction false} ParseTailIsText(s: string)
    requires ParseTail(s).Some?
    ensures s == TailText(ParseTail(s).value.0) + ParseTail(s).value.1
    decreases |s|
  {
    if s[0] == ',' {
      var p := ParseEntry(s[1..]).value;
      var q := ParseTail(p.1).value;
      ParseEntryIsText(s[1..]);
      ParseTailIsText(p.1);
      var es := [p.0] + q.0;
      assert es[0] == p.0 && es[1..] == q.0;
      assert s == "," + s[1..];
      AppendAssoc(EntryText(p.0), TailText(q.0), q.1);
      AppendAssoc(",", EntryText(p.0) + TailText(q.0), q.1);
    } else {
      assert s == "]" + s[1..];
    }
  }

  /** What `ParseBody` accepts is exactly a written array body and what follows. */
  lemma ParseBodyIsText(s: string)
    requires ParseBody(s).Some?
    ensures var r := ParseBody(s).value;
      "[" + s == Serialize(r.0) + r.1
  {
    if s != [] && s[0] == ']' {
      assert s == "]" + s[1..];
    } else {
      var p := ParseEntry(s).value;
      var q := ParseTail(p.1).value;
      ParseEntryIsText(s);
      ParseTailIsText(p.1);
      var es := [p.0] + q.0;
      assert es[0] == p.0 && es[1..] == q.0;
      AppendAssoc(EntryText(p.0), TailText(q.0), q.1);
      AppendAssoc("[", EntryText(p.0) + TailText(q.0), q.1);
    }
  }

  /** `JSON.parse` of the snapshot text. It accepts only what `Serialize`
      writes: any other text is `None`, as when the webhook's parse throws. */
  function Parse(s: string): (r: Option<seq<Entry>>)
    ensures r.Some? ==> Serialize(r.value) == s
  {
    var s1 :- Expect("[", s);
    var b :- ParseBody(s1);
    ParseBodyIsText(s1);
    assert b.1 == [] ==> Serialize(b.0) + b.1 == Serialize(b.0);
    if b.1 == [] then Some(b.0) else None
  }

  /** A number written with a leading zero, signed or not, is refused, as
      `JSON.parse` refuses it. */
  lemma LeadingZeroRefused(sign: string, ds: string, rest: string)
    requires sign == "" || sign == "-"
    requires |ds| >= 2 && AllDigits(ds) && ds[0] == '0'
    requires NumberEnd(rest)
    ensures ParseInt(sign + ds + rest) == None
  {
    DigitRunOfDigits(ds, rest);
    assert (ds + rest)[..|ds|] == ds;
    if sign == "-" {
      assert (sign + ds + rest)[1..] == ds + rest;
    } else {
      assert sign + ds + rest == ds + rest;
    }
  }

  lemma AppendAssoc<T>(a: seq<T>, b: seq<T>, c: seq<T>)
    ensures (a + b) + c == a + (b + c)
  {
  }

  lemma ParseTailStep(s: string, e: Entry, more: string, es: seq<Entry>, rest: string)
    requires s != [] && s[0] == ','
    requires ParseEntry(s[1..]) == Some((e, more))
    requires ParseTail(more) == Some((es, rest))
    ensures ParseTail(s) == Some(([e] + es, rest))
  {
  }

  lemma {:induction false} ParseTailText(es: seq<Entry>, rest: string)
    ensures ParseTail(TailText(es) + rest) == Some((es, rest))
    decreases |es|
  {
    if es == [] {
      assert (TailText(es) + rest)[1..] == rest;
    } else {
      var more := TailText(es[1..]) + rest;
      var head := EntryText(es[0]) + more;
      var s := TailText(es) + rest;
      AppendAssoc(",", EntryText(es[0]) + TailText(es[1..]), rest);
      AppendAssoc(EntryText(es[0]), TailText(es[1..]), rest);
      assert s == "," + head;
      assert s[1..] == head;
      ParseEntryText(es[0], more);
      ParseTailText(es[1..], rest);
      ParseTailStep(s, es[0], more, es[1..], rest);
      assert [es[0]] + es[1..] == es;
    }
  }

  /** The webhook reads back exactly the entries checkout wrote. */
  lemma {:induction false} ParseSerialize(es: seq<Entry>)
    ensures Parse(Serialize(es)) == Some(es)
  {
    var body := if es == [] then "]" else EntryText(es[0]) + TailText(es[1..]);
    ExpectText("[", body);
    if es == [] {
      assert body[1..] == [];
    } else {
      ParseEntryText(es[0], TailText(es[1..]));
      ParseTailText(es[1..], []);
      assert TailText(es[1..]) + [] == TailText(es[1..]);
      assert [es[0]] + es[1..] == es;
    }
  }
}

=== FILE: sorting.dfy ===
/** `ORDER BY` on a single integer key, as an insertion sort on sequences.
    The database leaves the order of equal keys open; this model keeps rows
    with equal keys in table order. */
module Sorting {

  /** `s` is ordered by ascending `key`: each element's key is at most the
      next one's. */
  predicate SortedBy<T>(s: seq<T>, key: T -> int) {
    forall i :: 0 <= i < |s| - 1 ==> key(s[i]) <= key(s[i + 1])
  }

  /** In an ordered sequence every earlier key is at most every later one. */
  lemma {:induction false} SortedPairs<T>(s: seq<T>, key: T -> int)
    requires SortedBy(s, key)
    ensures forall i, j :: 0 <= i < j < |s| ==> key(s[i]) <= key(s[j])
    decreases |s|
  {
    if |s| > 1 {
      SortedPairs(s[1..], key);
      forall i, j | 0 <= i < j < |s|
        ensures key(s[i]) <= key(s[j])
      {
        if i == 0 {
          assert key(s[0]) <= key(s[1]);
          assert key(s[1..][0]) <= key(s[1..][j - 1]);
        } else {
          assert key(s[1..][i - 1]) <= key(s[1..][j - 1]);
        }
      }
    }
  }

  /** Inserts `x` into the ordered `s` before the first element with a larger key. */
  function Insert<T>(x: T, s: seq<T>, key: T -> int): (r: seq<T>)
    requires SortedBy(s, key)
    ensures SortedBy(r, key)
    ensures multiset(r) == multiset(s) + multiset{x}
    ensures |r| == |s| + 1
    ensures r[0] == x || (s != [] && r[0] == s[0])
  {
    if s == [] then [x]
    else if key(x) <= key(s[0]) then [x] + s
    else
      var t := Insert(x, s[1..], key);
      assert s == [s[0]] + s[1..];
      [s[0]] + t
  }

  /** `s` rearranged into ascending order of `key`. */
  function SortBy<T>(s: seq<T>, key: T -> int): (r: seq<T>)
    ensures SortedBy(r, key)
    ensures multiset(r) == multiset(s)
    ensures |r| == |s|
  {
    if s == [] then []
    else
      assert s == [s[0]] + s[1..];
      Insert(s[0], SortBy(s[1..], key), key)
  }

  /** Sequences with the same elements counted with multiplicity have the
      same members. */
  lemma SameMembers<T>(a: seq<T>, b: seq<T>)
    requires multiset(a) == multiset(b)
    ensures forall x :: x in a <==> x in b
  {
    forall x
      ensures x in a <==> x in b
    {
      assert x in a <==> x in multiset(a);
      assert x in b <==> x in multiset(b);
    }
  }

  /** The only arrangement of a single element. */
  lemma OnlyArrangement<T>(r: seq<T>, x: T)
    requires multiset(r) == multiset{x}
    ensures r == [x]
  {
    assert |r| == |multiset(r)| == 1;
    assert r[0] in multiset(r);
  }
}

=== FILE: ticket_messages.dfy ===
/** Replies to a support ticket (src/app/api/tickets/messages/route.jsx):
    who may reply, the message a reply adds, and how a reply moves the
    ticket's status. */
module TicketMessages {
  import opened Common
  import opened Schema
  import Tickets
  import AdminAuth

  const Open: string := "open"
  const InProgress: string := "in_progress"
  const Resolved: string := "resolved"
  const Closed: string := "closed"

  /** The replier is an admin when the first users row with the caller's
      e-mail address has the admin flag; without an address no row matches.
      For a non-empty address this is the shared admin check; an empty
      address still looks up the rows whose address is empty. */
  function ReplierIsAdmin(users: seq<User>, caller: Option<ClerkUser>): (b: bool)
    ensures RawEmail(caller).None? ==> !b
    ensures b ==> exists k :: 0 <= k < |users| && users[k].email == RawEmail(caller).value && users[k].isAdmin
    ensures caller.Some? && Present(caller.value.email) ==> (b <==> AdminAuth.CheckAdminAuth(caller, Some(users)).isAdmin)
  {
    var e := RawEmail(caller);
    e.Some? && var u := FindUserByEmail(users, e.value); u.Some? && u.value.isAdmin
  }

  /** The caller's address is the one the ticket was opened with. */
  predicate OwnsTicket(t: Ticket, caller: Option<ClerkUser>) {
    RawEmail(caller).Some? && t.userEmail == RawEmail(caller)
  }

  /** `user.fullName || user.firstName || "User"`. */
  function SenderName(u: ClerkUser): (r: string)
    ensures Present(u.fullName) ==> r == u.fullName.value
    ensures !Present(u.fullName) && Present(u.firstName) ==> r == u.firstName.value
    ensures !Present(u.fullName) && !Present(u.firstName) ==> r == "User"
    ensures r != ""
  {
    if Present(u.fullName) then u.fullName.value
    else if Present(u.firstName) then u.firstName.value
    else "User"
  }

  /** The status after a reply: an admin reply puts the ticket in progress
      unless it is resolved; a user reply reopens a resolved ticket and
      otherwise leaves the status. */
  function NextStatus(isAdmin: bool, s: string): (r: string)
    ensures s != Closed ==> r != Closed
    ensures r == Resolved ==> s == Resolved && isAdmin
    ensures s == Resolved ==> r == (if isAdmin then Resolved else Open)
    ensures isAdmin && s != Resolved ==> r == InProgress
    ensures !isAdmin && s != Resolved ==> r == s
  {
    if isAdmin then (if s == Resolved then Resolved else InProgress)
    else (if s == Resolved then Open else s)
  }

  /** A second reply from the same side does not move the status again. */
  lemma NextStatusSettles(isAdmin: bool, s: string)
    ensures NextStatus(isAdmin, NextStatus(isAdmin, s)) == NextStatus(isAdmin, s)
  {
  }

  /** Replies keep a ticket inside the open / in progress / resolved cycle:
      from any of the three the next status is again one of them. */
  lemma NextStatusStaysInCycle(isAdmin: bool, s: string)
    requires s in {Open, InProgress, Resolved}
    ensures NextStatus(isAdmin, s) in {Open, InProgress, Resolved}
  {
  }

  /** A reply is accepted: a signed-in caller, a ticket id and a message, an
      existing ticket that is not closed, and an admin or the ticket's owner. */
  predicate Accepts(db: Db, caller: Option<ClerkUser>, ticketId: Option<int>, message: Option<string>) {
    && caller.Some?
    && PresentInt(ticketId) && Present(message)
    && var t := Tickets.FindTicket(db.tickets, ticketId.value);
    && t.Some?
    && t.value.status != Closed
    && (ReplierIsAdmin(db.users, caller) || OwnsTicket(t.value, caller))
  }

  /** POST /api/tickets/messages. The checks come in this order: sign-in
      (401), ticket id and message (400), the ticket (404), closed (400),
      admin or owner (403). An accepted reply appends one message carrying
      the replier's admin flag and display name, and updates the ticket's
      status and update time; a refused one changes nothing. */
  function Reply(db: Db, caller: Option<ClerkUser>, ticketId: Option<int>, message: Option<string>, now: nat)
    : (r: (Response<TicketMessage>, Db))
    ensures caller.None? ==> r == (Fail(401, "Unauthorized"), db)
    ensures caller.Some? && (!PresentInt(ticketId) || !Present(message)) ==>
      r == (Fail(400, "Ticket ID and message are required"), db)
    ensures caller.Some? && PresentInt(ticketId) && Present(message)
            && Tickets.FindTicket(db.tickets, ticketId.value).None? ==>
      r == (Fail(404, "Ticket not found"), db)
    ensures caller.Some? && PresentInt(ticketId) && Present(message)
            && Tickets.FindTicket(db.tickets, ticketId.value).Some?
            && Tickets.FindTicket(db.tickets, ticketId.value).value.status == Closed ==>
      r == (Fail(400, "Cannot reply to a closed ticket"), db)
    ensures caller.Some? && PresentInt(ticketId) && Present(message)
            && Tickets.FindTicket(db.tickets, ticketId.value).Some?
            && Tickets.FindTicket(db.tickets, ticketId.value).value.status != Closed
            && !ReplierIsAdmin(db.users, caller)
            && !OwnsTicket(Tickets.FindTicket(db.tickets, ticketId.value).value, caller) ==>
      r == (Fail(403, "Unauthorized to reply to this ticket"), db)
    ensures r.0.Ok? <==> Accepts(db, caller, ticketId, message)
    ensures r.0.Ok? ==>
      var id := ticketId.value;
      var before := Tickets.FindTicket(db.tickets, id).value;
      var admin := ReplierIsAdmin(db.users, caller);
      var m := r.0.body;
      && m == TicketMessage(db.nextMessageId, id, RawEmail(caller), Some(SenderName(caller.value)),
                            message.value, admin, now)
      && r.1.messages == db.messages + [m]
      && |r.1.tickets| == |db.tickets|
      && (forall k :: 0 <= k < |db.tickets| && db.tickets[k].id != id ==> r.1.tickets[k] == db.tickets[k])
      && (forall k :: 0 <= k < |db.tickets| && db.tickets[k].id == id ==>
            r.1.tickets[k] == db.tickets[k].(status := NextStatus(admin, before.status), updatedAt := now))
      && r.1 == db.(messages := r.1.messages, nextMessageId := db.nextMessageId + 1, tickets := r.1.tickets)
  {
    if caller.None? then (Fail(401, "Unauthorized"), db)
    else if !PresentInt(ticketId) || !Present(message) then (Fail(400, "Ticket ID and message are required"), db)
    else
      var id := ticketId.value;
      match Tickets.FindTicket(db.tickets, id)
      case None => (Fail(404, "Ticket not found"), db)
      case Some(t) =>
        if t.status == Closed then (Fail(400, "Cannot reply to a closed ticket"), db)
        else
          var admin := ReplierIsAdmin(db.users, caller);
          if !admin && !OwnsTicket(t, caller) then (Fail(403, "Unauthorized to reply to this ticket"), db)
          else
            var m := TicketMessage(db.nextMessageId, id, RawEmail(caller), Some(SenderName(caller.value)),
                                   message.value, admin, now);
            (Ok(m), db.(messages := db.messages + [m], nextMessageId := db.nextMessageId + 1,
                        tickets := Tickets.Touch(db.tickets, id, Some(NextStatus(admin, t.status)), now)))
  }

  /** Replies never close a ticket and never touch a closed one: a ticket
      that is not closed before a reply is not closed after it, and one that
      is closed stays exactly as it was. */
  lemma ReplyNeverCloses(db: Db, caller: Option<ClerkUser>, ticketId: Option<int>, message: Option<string>,
                         now: nat, k: int)
    requires Tickets.UniqueIds(db.tickets)
    requires 0 <= k < |db.tickets|
    ensures var db1 := Reply(db, caller, ticketId, message, now).1;
      && |db1.tickets| == |db.tickets|
      && (db.tickets[k].status != Closed ==> db1.tickets[k].status != Closed)
      && (db.tickets[k].status == Closed ==> db1.tickets[k] == db.tickets[k])
  {
    var (r, db1) := Reply(db, caller, ticketId, message, now);
    if r.Ok? && db.tickets[k].id == ticketId.value {
      var before := Tickets.FindTicket(db.tickets, ticketId.value).value;
      var j :| 0 <= j < |db.tickets| && db.tickets[j] == before;
      assert j == k;
    }
  }

  /** A reply keeps the ticket tables well formed. */
  lemma ReplyKeepsWf(db: Db, caller: Option<ClerkUser>, ticketId: Option<int>, message: Option<string>, now: nat)
    requires Tickets.Wf(db)
    ensures Tickets.Wf(Reply(db, caller, ticketId, message, now).1)
  {
    var (r, db1) := Reply(db, caller, ticketId, message, now);
    if r.Ok? {
      var t := Tickets.FindTicket(db.tickets, ticketId.value).value;
      assert t.id < db.nextTicketId;
    }
  }
}

=== FILE: tickets.dfy ===
/** Support tickets (src/app/api/tickets/route.jsx): opening a ticket with
    its first message, reading one ticket or the caller's own list with the
    message threads, and setting a ticket's status. */
module Tickets {
  import opened Common
  import opened Schema
  import opened Sorting

  /** A ticket with its message thread, `{ ...ticket, messages }`. */
  datatype TicketView = TicketView(ticket: Ticket, messages: seq<TicketMessage>)

  /** The two shapes GET answers with: one ticket, or the caller's list. */
  datatype TicketsReply = One(view: TicketView) | Many(views: seq<TicketView>)

  /** The first ticket with the given id (`id` is the primary key). */
  function FindTicket(tickets: seq<Ticket>, id: int): (r: Option<Ticket>)
    ensures r.Some? ==> r.value in tickets && r.value.id == id
    ensures r.None? <==> forall k :: 0 <= k < |tickets| ==> tickets[k].id != id
  {
    First(tickets, TicketIdIs(id))
  }

  function TicketIdIs(id: int): Ticket -> bool {
    (t: Ticket) => t.id == id
  }

  function OfTicket(id: int): TicketMessage -> bool {
    (m: TicketMessage) => m.ticketId == id
  }

  function OwnedBy(email: Option<string>): Ticket -> bool {
    (t: Ticket) => email.Some? && t.userEmail == email
  }

  /** Sort key of `ORDER BY createdAt`. */
  function MessageTime(m: TicketMessage): int {
    m.createdAt
  }

  /** Sort key of `ORDER BY updatedAt DESC`. */
  function LatestFirst(t: Ticket): int {
    -(t.updatedAt as int)
  }

  /** A ticket's thread: its messages, oldest first. */
  function Thread(messages: seq<TicketMessage>, id: int): (r: seq<TicketMessage>)
    ensures forall m :: m in r <==> m in messages && m.ticketId == id
    ensures multiset(r) == multiset(Where(messages, OfTicket(id)))
    ensures forall i, j :: 0 <= i < j < |r| ==> r[i].createdAt <= r[j].createdAt
  {
    var r := SortBy(Where(messages, OfTicket(id)), MessageTime);
    SameMembers(r, Where(messages, OfTicket(id)));
    SortedPairs(r, MessageTime);
    r
  }

  /** The caller's tickets, most recently updated first. A caller without an
      e-mail address owns no ticket. */
  function OwnTickets(tickets: seq<Ticket>, email: Option<string>): (r: seq<Ticket>)
    ensures forall t :: t in r <==> t in tickets && email.Some? && t.userEmail == email
    ensures multiset(r) == multiset(Where(tickets, OwnedBy(email)))
    ensures forall i, j :: 0 <= i < j < |r| ==> r[i].updatedAt >= r[j].updatedAt
  {
    var r := SortBy(Where(tickets, OwnedBy(email)), LatestFirst);
    SameMembers(r, Where(tickets, OwnedBy(email)));
    SortedPairs(r, LatestFirst);
    r
  }

  /** GET /api/tickets. Signed-out callers get 401. With an id: that ticket
      and its thread, 404 when there is none; nothing checks that the caller
      owns it. Without an id: the caller's own tickets, latest update
      first, each with its thread. */
  function Get(db: Db, caller: Option<ClerkUser>, ticketId: Option<int>): (r: Response<TicketsReply>)
    ensures caller.None? ==> r == Fail(401, "Unauthorized")
    ensures caller.Some? && ticketId.Some? && FindTicket(db.tickets, ticketId.value).None? ==>
      r == Fail(404, "Ticket not found")
    ensures r.Ok? <==> caller.Some? && (ticketId.Some? ==> FindTicket(db.tickets, ticketId.value).Some?)
    ensures r.Ok? && ticketId.Some? ==>
      && r.body.One?
      && r.body.view.ticket in db.tickets && r.body.view.ticket.id == ticketId.value
      && r.body.view.messages == Thread(db.messages, ticketId.value)
    ensures r.Ok? && ticketId.None? ==> r.body.Many?
    ensures r.Ok? && ticketId.None? && r.body.Many? ==>
      var vs := r.body.views;
      var e := RawEmail(caller);
      && |vs| == |OwnTickets(db.tickets, e)|
      && (forall k :: 0 <= k < |vs| ==>
            vs[k].ticket == OwnTickets(db.tickets, e)[k]
            && vs[k].messages == Thread(db.messages, vs[k].ticket.id))
  {
    if caller.None? then Fail(401, "Unauthorized")
    else if ticketId.Some? then
      match FindTicket(db.tickets, ticketId.value)
      case None => Fail(404, "Ticket not found")
      case Some(t) => Ok(One(TicketView(t, Thread(db.messages, ticketId.value))))
    else
      var ts := OwnTickets(db.tickets, RawEmail(caller));
      Ok(Many(seq(|ts|, k requires 0 <= k < |ts| => TicketView(ts[k], Thread(db.messages, ts[k].id)))))
  }

  /** Any signed-in caller reads any ticket by id: the reply does not depend
      on who asks. */
  lemma ByIdIgnoresOwner(db: Db, a: ClerkUser, b: ClerkUser, id: int)
    ensures Get(db, Some(a), Some(id)) == Get(db, Some(b), Some(id))
  {
  }

  /** Every listed ticket belongs to the caller, and every ticket of the
      caller is listed. */
  lemma ListIsOwnTickets(db: Db, caller: ClerkUser, t: Ticket)
    requires caller.email.Some?
    ensures var r := Get(db, Some(caller), None);
      r.Ok? && ((exists k :: 0 <= k < |r.body.views| && r.body.views[k].ticket == t)
                <==> t in db.tickets && t.userEmail == caller.email)
  {
    var r := Get(db, Some(caller), None);
    var ts := OwnTickets(db.tickets, caller.email);
    if t in ts {
      var k :| 0 <= k < |ts| && ts[k] == t;
      assert r.body.views[k].ticket == t;
    }
  }

  /** POST /api/tickets: opens a ticket without any sign-in check, for the
      e-mail and name the request names. Subject and message are required;
      the priority defaults to "medium"; the status starts "open"; the
      opening message is a non-admin message from the same sender. */
  function Create(db: Db, userEmail: Option<string>, userName: Option<string>, subject: Option<string>,
                  message: Option<string>, priority: Option<string>, now: nat): (r: (Response<Ticket>, Db))
    ensures !Present(subject) || !Present(message) ==>
      r == (Fail(400, "Subject and message are required"), db)
    ensures r.0.Ok? <==> Present(subject) && Present(message)
    ensures r.0.Ok? ==>
      var t := r.0.body;
      && t.id == db.nextTicketId
      && t.userEmail == userEmail && t.userName == userName && t.subject == subject.value
      && t.priority == (if Present(priority) then priority.value else "medium")
      && t.status == "open"
      && r.1.tickets == db.tickets + [t]
      && r.1.messages == db.messages + [TicketMessage(db.nextMessageId, t.id, userEmail, userName, message.value, false, now)]
      && r.1 == db.(tickets := r.1.tickets, nextTicketId := db.nextTicketId + 1,
                    messages := r.1.messages, nextMessageId := db.nextMessageId + 1)
  {
    if !Present(subject) || !Present(message) then (Fail(400, "Subject and message are required"), db)
    else
      var t := Ticket(db.nextTicketId, userEmail, userName, subject.value,
                      if Present(priority) then priority.value else "medium", "open", now, now);
      var m := TicketMessage(db.nextMessageId, t.id, userEmail, userName, message.value, false, now);
      (Ok(t), db.(tickets := db.tickets + [t], nextTicketId := db.nextTicketId + 1,
                  messages := db.messages + [m], nextMessageId := db.nextMessageId + 1))
  }

  /** `UPDATE tickets SET status, updatedAt WHERE id`: a missing status
      leaves the column as it was. */
  function Touch(tickets: seq<Ticket>, id: int, status: Option<string>, now: nat): (r: seq<Ticket>)
    ensures |r| == |tickets|
    ensures forall k :: 0 <= k < |r| ==>
      r[k] == if tickets[k].id == id then tickets[k].(status := status.GetOr(tickets[k].status), updatedAt := now)
              else tickets[k]
  {
    seq(|tickets|, k requires 0 <= k < |tickets| =>
      if tickets[k].id == id then tickets[k].(status := status.GetOr(tickets[k].status), updatedAt := now)
      else tickets[k])
  }

  /** A ticket the update touched is found again, carrying the new time. */
  lemma TouchedFound(tickets: seq<Ticket>, id: int, status: Option<string>, now: nat)
    requires FindTicket(tickets, id).Some?
    ensures var found := FindTicket(Touch(tickets, id, status, now), id);
      found.Some? && found.value.updatedAt == now
  {
    var ts := Touch(tickets, id, status, now);
    var k :| 0 <= k < |tickets| && tickets[k] == FindTicket(tickets, id).value;
    assert ts[k].id == id;
    var j :| 0 <= j < |ts| && ts[j] == FindTicket(ts, id).value;
  }

  /** PATCH /api/tickets: any signed-in caller sets any ticket's status, to
      any value, and its update time. The reply is the updated row. When no
      ticket has the id, the update returns no row and
      `NextResponse.json(undefined)` throws inside the handler's `try`, so
      the reply is the 500 of its `catch`; nothing was written. */
  function SetStatus(db: Db, caller: Option<ClerkUser>, id: int, status: Option<string>, now: nat)
    : (r: (Response<Ticket>, Db))
    ensures caller.None? ==> r == (Fail(401, "Unauthorized"), db)
    ensures caller.Some? ==>
      && (r.0.Ok? <==> exists k :: 0 <= k < |db.tickets| && db.tickets[k].id == id)
      && (r.0.Fail? ==> r == (Fail(500, "Failed to update ticket"), db))
      && |r.1.tickets| == |db.tickets|
      && (forall k :: 0 <= k < |db.tickets| && db.tickets[k].id != id ==> r.1.tickets[k] == db.tickets[k])
      && (forall k :: 0 <= k < |db.tickets| && db.tickets[k].id == id ==>
            && r.1.tickets[k].status == (if status.Some? then status.value else db.tickets[k].status)
            && r.1.tickets[k].updatedAt == now
            && r.1.tickets[k] == db.tickets[k].(status := r.1.tickets[k].status, updatedAt := now))
      && (r.0.Ok? ==> r.0.body in r.1.tickets && r.0.body.id == id && r.0.body.updatedAt == now)
      && r.1 == db.(tickets := r.1.tickets)
  {
    if caller.None? then (Fail(401, "Unauthorized"), db)
    else if FindTicket(db.tickets, id).None? then (Fail(500, "Failed to update ticket"), db)
    else
      var ts := Touch(db.tickets, id, status, now);
      TouchedFound(db.tickets, id, status, now);
      (Ok(FindTicket(ts, id).value), db.(tickets := ts))
  }

  /** `id` is the tickets table's primary key. */
  predicate UniqueIds(tickets: seq<Ticket>) {
    forall i, j :: 0 <= i < j < |tickets| ==> tickets[i].id != tickets[j].id
  }

  /** The ids the ticket tables hand out are fresh: every ticket and every
      message refers to a ticket id below the counter, and every message id
      is below its counter. */
  predicate Wf(db: Db) {
    && (forall k :: 0 <= k < |db.tickets| ==> db.tickets[k].id < db.nextTicketId)
    && (forall k :: 0 <= k < |db.messages| ==>
          db.messages[k].ticketId < db.nextTicketId && db.messages[k].id < db.nextMessageId)
  }

  /** A status change keeps the ticket tables well formed and the ticket ids
      distinct: it writes no id. */
  lemma SetStatusKeepsWf(db: Db, caller: Option<ClerkUser>, id: int, status: Option<string>, now: nat)
    requires Wf(db) && UniqueIds(db.tickets)
    ensures var db1 := SetStatus(db, caller, id, status, now).1;
      Wf(db1) && UniqueIds(db1.tickets)
  {
    if caller.Some? && FindTicket(db.tickets, id).Some? {
      TouchKeepsWf(db, id, status, now);
    }
  }

  /** The update writes no id. */
  lemma TouchKeepsWf(db: Db, id: int, status: Option<string>, now: nat)
    requires Wf(db) && UniqueIds(db.tickets)
    ensures var ts := Touch(db.tickets, id, status, now);
      Wf(db.(tickets := ts)) && UniqueIds(ts)
  {
    var ts := Touch(db.tickets, id, status, now);
    assert forall k :: 0 <= k < |ts| ==> ts[k].id == db.tickets[k].id;
  }

  /** Repeating a status change with the same status and time gives the same
      reply and writes nothing more. */
  lemma SetStatusTwice(db: Db, caller: Option<ClerkUser>, id: int, status: Option<string>, now: nat)
    ensures var (r1, db1) := SetStatus(db, caller, id, status, now);
      SetStatus(db1, caller, id, status, now) == (r1, db1)
  {
    if caller.Some? {
      var ts := Touch(db.tickets, id, status, now);
      assert Touch(ts, id, status, now) == ts;
    }
  }

  /** Opening a ticket keeps the ticket tables well formed. */
  lemma CreateKeepsWf(db: Db, userEmail: Option<string>, userName: Option<string>, subject: Option<string>,
                      message: Option<string>, priority: Option<string>, now: nat)
    requires Wf(db)
    ensures Wf(Create(db, userEmail, userName, subject, message, priority, now).1)
  {
  }

  /** A new ticket's thread is exactly its opening message. */
  lemma CreateOpensThread(db: Db, userEmail: Option<string>, userName: Option<string>, subject: Option<string>,
                          message: Option<string>, priority: Option<string>, now: nat)
    requires Wf(db)
    requires Present(subject) && Present(message)
    ensures var (r, db1) := Create(db, userEmail, userName, subject, message, priority, now);
      Thread(db1.messages, r.body.id)
         == [TicketMessage(db.nextMessageId, r.body.id, userEmail, userName, message.value, false, now)]
  {
    var (r, db1) := Create(db, userEmail, userName, subject, message, priority, now);
    var m := db1.messages[|db.messages|];
    var keep := OfTicket(r.body.id);
    WhereAppend(db.messages, [m], keep);
    NoneOfTicket(db.messages, r.body.id);
    assert Where([m], keep) == [m];
    OnlyArrangement(Thread(db1.messages, r.body.id), m);
  }

  lemma {:induction false} NoneOfTicket(messages: seq<TicketMessage>, id: int)
    requires forall k :: 0 <= k < |messages| ==> messages[k].ticketId < id
    ensures Where(messages, OfTicket(id)) == []
    decreases |messages|
  {
    if messages != [] {
      NoneOfTicket(messages[1..], id);
    }
  }
}

=== FILE: user_sync.dfy ===
/** Keeping the users table in step with the identity provider
    (src/app/api/user/route.jsx): the signed-in user's record is inserted
    when its e-mail address is new and refreshed otherwise. The handler has
    no error handling, so a failing statement surfaces as a 500 reply with
    nothing written. */
module UserSync {
  import opened Common
  import opened Schema
  import AdminAuth

  /** The rows with the address take the new name and image. */
  function Refresh(users: seq<User>, email: string, name: string, image: Option<string>): (r: seq<User>)
    ensures |r| == |users|
    ensures forall k :: 0 <= k < |users| ==>
      r[k] == if users[k].email == email then users[k].(name := name, image := image) else users[k]
  {
    seq(|users|, k requires 0 <= k < |users| =>
      if users[k].email == email then users[k].(name := name, image := image) else users[k])
  }

  /** POST /api/user with the provider's user record. Without a user or an
      address there is nothing to match or insert, and without a full name
      the not-null name column refuses both the insert and the update:
      each is a 500 that writes nothing. Otherwise a new address gets one new
      non-admin row and a known one has only its name and image replaced. */
  function Sync(db: Db, user: Option<ClerkUser>): (r: (Response<User>, Db))
    ensures user.None? || user.value.email.None? || user.value.fullName.None? ==>
      r == (Fail(500, "Internal Server Error"), db)
    ensures r.0.Ok? <==> user.Some? && user.value.email.Some? && user.value.fullName.Some?
    ensures r.0.Ok? ==>
      var e := user.value.email.value;
      var name := user.value.fullName.value;
      var image := user.value.imageUrl;
      && r.0.body.email == e && r.0.body.name == name && r.0.body.image == image
      && r.1 == db.(users := r.1.users, nextUserId := r.1.nextUserId)
      && (FindUserByEmail(db.users, e).None? ==>
            && r.0.body == User(db.nextUserId, name, e, image, false)
            && r.1.users == db.users + [r.0.body]
            && r.1.nextUserId == db.nextUserId + 1)
      && (FindUserByEmail(db.users, e).Some? ==>
            && r.1.nextUserId == db.nextUserId
            && |r.1.users| == |db.users|
            && r.0.body.id == FindUserByEmail(db.users, e).value.id
            && r.0.body.isAdmin == FindUserByEmail(db.users, e).value.isAdmin
            && (forall k :: 0 <= k < |db.users| && db.users[k].email != e ==> r.1.users[k] == db.users[k])
            && (forall k :: 0 <= k < |db.users| && db.users[k].email == e ==>
                  r.1.users[k] == db.users[k].(name := name, image := image)))
  {
    if user.None? || user.value.email.None? || user.value.fullName.None? then
      (Fail(500, "Internal Server Error"), db)
    else
      var e := user.value.email.value;
      var name := user.value.fullName.value;
      var image := user.value.imageUrl;
      match FindUserByEmail(db.users, e)
      case None =>
        var u := User(db.nextUserId, name, e, image, false);
        (Ok(u), db.(users := db.users + [u], nextUserId := db.nextUserId + 1))
      case Some(known) =>
        (Ok(known.(name := name, image := image)), db.(users := Refresh(db.users, e, name, image)))
  }

  /** The number of rows with an address. */
  function CountEmail(users: seq<User>, email: string): nat {
    if users == [] then 0 else (if users[0].email == email then 1 else 0) + CountEmail(users[1..], email)
  }

  lemma {:induction false} CountEmailAppend(users: seq<User>, u: User, email: string)
    ensures CountEmail(users + [u], email) == CountEmail(users, email) + (if u.email == email then 1 else 0)
    decreases |users|
  {
    if users == [] {
      assert users + [u] == [u];
    } else {
      assert (users + [u])[1..] == users[1..] + [u];
      CountEmailAppend(users[1..], u, email);
    }
  }

  lemma {:induction false} CountEmailUnique(users: seq<User>, email: string)
    requires AdminAuth.UniqueEmails(users)
    ensures CountEmail(users, email) <= 1
    ensures CountEmail(users, email) == 0 <==> FindUserByEmail(users, email).None?
    decreases |users|
  {
    if users != [] {
      CountEmailUnique(users[1..], email);
      if users[0].email == email {
        assert FindUserByEmail(users[1..], email).None?;
      }
    }
  }

  lemma {:induction false} CountEmailSameEmails(a: seq<User>, b: seq<User>, email: string)
    requires |a| == |b|
    requires forall k :: 0 <= k < |a| ==> a[k].email == b[k].email
    ensures CountEmail(a, email) == CountEmail(b, email)
    decreases |a|
  {
    if a != [] {
      CountEmailSameEmails(a[1..], b[1..], email);
    }
  }

  /** With unique addresses before, a successful sync leaves them unique and
      leaves exactly one row for the synced address. */
  lemma SyncLeavesOneRow(db: Db, user: Option<ClerkUser>)
    requires AdminAuth.UniqueEmails(db.users)
    requires Sync(db, user).0.Ok?
    ensures var db1 := Sync(db, user).1;
      && AdminAuth.UniqueEmails(db1.users)
      && CountEmail(db1.users, user.value.email.value) == 1
  {
    var e := user.value.email.value;
    var db1 := Sync(db, user).1;
    if FindUserByEmail(db.users, e).None? {
      CountEmailUnique(db.users, e);
      CountEmailAppend(db.users, db1.users[|db.users|], e);
      assert db1.users == db.users + [db1.users[|db.users|]];
    } else {
      CountEmailUnique(db.users, e);
      CountEmailSameEmails(db1.users, db.users, e);
    }
  }
}

=== FILE: webhook.dfy ===
/** Order materialisation on the webhook path (src/app/api/webhook/stripe/route.jsx):
    the payment processor posts a signed event; a completed checkout is
    turned into an order rebuilt from the session's metadata snapshot, and
    the buyer's cart is cleared. There is no lookup of an existing order
    for the session, so every delivery of the same event inserts another
    order. Signature verification is the processor library's; its verdict
    is the `signatureValid` parameter. */
module Webhook {
  import opened Common
  import opened Schema
  import Snapshot
  import CartApi

  /** The string values the checkout stored on the session. */
  datatype Metadata = Metadata(userEmail: Option<string>, cartItems: Option<string>)

  /** `event.data.object` for a checkout session; `amountTotal` in cents. */
  datatype Session = Session(id: string, amountTotal: int, metadata: Metadata)

  datatype Event = Event(kind: string, session: Session)

  /** `{ received: true }`. */
  datatype Ack = Received

  const Completed: string := "checkout.session.completed"

  /** The snapshot entry's product has a row. */
  function InCatalog(products: seq<Product>): Snapshot.Entry -> bool {
    (x: Snapshot.Entry) => FindProduct(products, x.productId).Some?
  }

  /** One item line per snapshot entry whose product still exists, in
      snapshot order, with the snapshot's quantity and the product's
      current price. */
  function SnapshotLines(es: seq<Snapshot.Entry>, products: seq<Product>): (r: seq<ItemLine>)
    ensures |r| == |Where(es, InCatalog(products))| <= |es|
    ensures forall k :: 0 <= k < |r| ==>
      var p := FindProduct(products, r[k].productId);
      p.Some? && r[k].price == p.value.price
    ensures forall k :: 0 <= k < |r| ==>
      var x := Where(es, InCatalog(products))[k];
      r[k].productId == x.productId && r[k].quantity == x.quantity
  {
    var kept := Where(es, InCatalog(products));
    assert forall k :: 0 <= k < |kept| ==> kept[k] in kept;
    seq(|kept|, k requires 0 <= k < |kept| =>
      ItemLine(kept[k].productId, kept[k].quantity, FindProduct(products, kept[k].productId).value.price))
  }

  /** The event creates an order: a verified completed-checkout event whose
      metadata has both fields and whose snapshot parses. */
  predicate Processes(signatureValid: bool, event: Event) {
    var md := event.session.metadata;
    && signatureValid
    && event.kind == Completed
    && Present(md.userEmail) && Present(md.cartItems)
    && Snapshot.Parse(md.cartItems.value).Some?
  }

  /** POST /api/webhook/stripe. An unverified event is refused with 400 and
      changes nothing. Every verified event is acknowledged; only a
      processable completed checkout changes the tables: one more order for
      the session (whether or not one exists), its items, and the buyer's
      cart emptied. */
  function Handle(db: Db, signatureValid: bool, event: Event, now: nat): (r: (Response<Ack>, Db))
    ensures !signatureValid ==> r == (Fail(400, "Webhook Error"), db)
    ensures signatureValid ==> r.0 == Ok(Received)
    ensures !Processes(signatureValid, event) ==> r.1 == db
    ensures Processes(signatureValid, event) ==>
      var s := event.session;
      var e := s.metadata.userEmail.value;
      var es := Snapshot.Parse(s.metadata.cartItems.value).value;
      var lines := SnapshotLines(es, db.products);
      && r.1.orders == db.orders + [Order(db.nextOrderId, e, s.id, s.amountTotal, "completed", now)]
      && CountSession(r.1.orders, s.id) == CountSession(db.orders, s.id) + 1
      && r.1.orderItems == db.orderItems + NewItems(db.nextOrderId, lines, db.nextOrderItemId)
      && (forall c :: c in r.1.cart <==> c in db.cart && c.userEmail != e)
      && r.1 == db.(orders := r.1.orders, nextOrderId := db.nextOrderId + 1,
                    orderItems := r.1.orderItems, nextOrderItemId := db.nextOrderItemId + |lines|,
                    cart := r.1.cart)
  {
    if !signatureValid then (Fail(400, "Webhook Error"), db)
    else if event.kind != Completed then (Ok(Received), db)
    else
      var s := event.session;
      var md := s.metadata;
      if !(Present(md.userEmail) && Present(md.cartItems)) then (Ok(Received), db)
      else
        match Snapshot.Parse(md.cartItems.value)
        case None => (Ok(Received), db)
        case Some(es) =>
          var e := md.userEmail.value;
          var o := Order(db.nextOrderId, e, s.id, s.amountTotal, "completed", now);
          var lines := SnapshotLines(es, db.products);
          CountSessionAppend(db.orders, o, s.id);
          (Ok(Received),
           db.(orders := db.orders + [o], nextOrderId := db.nextOrderId + 1,
               orderItems := db.orderItems + NewItems(o.id, lines, db.nextOrderItemId),
               nextOrderItemId := db.nextOrderItemId + |lines|,
               cart := CartApi.ClearOwner(db.cart, e)))
  }
}
